=== FILE: README.md ===
# Elevare job back end: a Dafny model

Elevare matches a candidate's resume against job postings. Its Flask back end
has several parts:

- Three browser scrapers: Naukri, LinkedIn and Unstop.
- A manager that runs the scrapers one after another and merges their results.
- A `jobs` table in Supabase.
- A background batch that fills the table for fifteen popular keywords.
- An extractor that normalises the candidate record a language model returns.
- The HTTP routes, which validate requests and rank stored jobs by how many of
  the resume's skills they mention.

The front end adds two small pure functions: the line classifier that renders
the resume analysis, and the case-insensitive filter of the job list page.

This project models that logic and proves what it promises. It has one Dafny
module per source file, plus three shared modules: `Common` (Python-like values
and string helpers), `Sorting` (the stable descending sort) and `JobRecords`
(the job record dictionary and the scrapers' shared card loop).

The code takes the source's own form:

- **Scrapers.** Each scraper is a class whose `driverOpen` field stands for
  `self.driver`.
  - Its card loop is a method, proved against a function over the card list.
  - A page is an input: each DOM lookup becomes an `Option<string>`, and a map
    from URL to page stands for the web.
- **Manager.** Its loop is a method proved against a fold over the per-source
  outcomes.
- **Database.** The table is a class holding a sequence of rows and an optional
  outage.
  - An insert appends rows, `delete_old_jobs` updates rows in place, and the
    queries are functions that read the table.
- **Background batch.** The batch and the route's own keyword loop are methods.
  - They are proved against the sequence of per-keyword results, the totals
    over it, and the rows it adds.
- **Everything else.** The validators, the scoring and ranking, the candidate
  normaliser and the two front-end functions are functions with lemmas.

## Model

| member | source | states |
|---|---|---|
| Sorting.InsertDesc | backend/app.py:356 | inserting adds exactly the one element (as a multiset) and keeps a sorted sequence sorted |
| Sorting.SortDesc | backend/app.py:356 | the result is a permutation of the input, sorted by non-increasing key |
| Sorting.SortDescStable | backend/app.py:356 | elements with the same key keep their input order (Python's sort is stable) |
| Sorting.WithKeyAppend | backend/app.py:356-359 | the elements with one key in a concatenation are those of each part, in order |
| Sorting.TakeSortedStable | backend/app.py:356-359 | cutting the stably sorted list keeps, for each key, the first of its elements in input order |
| Sorting.TakeSortedIsTop | backend/app.py:359 | an element cut off by the slice has a key no greater than any element kept |
| JobRecords.TextOr | backend/scraper/naukri_scraper.py:86 | a found element gives its stripped text, a missing one the default |
| JobRecords.CollectAppend | backend/scraper/naukri_scraper.py:79-144 | the records of two card runs are the records of each, concatenated in order |
| JobRecords.CollectFromCards | backend/scraper/naukri_scraper.py:79-144 | no more records than cards, and every record was built from one of the cards |
| JobRecords.SkippedCardDropped | backend/scraper/naukri_scraper.py:142-144 | a card that raises (or is skipped) leaves the records of the cards around it as they were |
| JobRecords.CollectRecords | backend/scraper/naukri_scraper.py:79-146 | the `enumerate` loop with its `idx >= max_jobs` break yields the records of the first `max_jobs` cards, so skipped cards use up the cap |
| Naukri.SearchUrl | backend/scraper/naukri_scraper.py:64 | the URL is the site base, the keyword unencoded, then "-jobs" |
| Naukri.LocationSearchUrl | backend/scraper/naukri_scraper.py:171 | the URL is base + keyword + "-jobs-in-" + location |
| Naukri.Record | backend/scraper/naukri_scraper.py:84-137 | each of the seven fields is the stripped text of its element, or "N/A" when the element is missing: title from the first row's link, URL from its `href` ("N/A" for a link without one), location, experience and salary from their spans inside `job-details` ("N/A" when the block or the span is missing); no `source`, keyword or time |
| Naukri.Build | backend/scraper/naukri_scraper.py:83-144 | a card yields a record exactly when its parsing does not raise |
| Naukri.RecordsShape | backend/scraper/naukri_scraper.py:129-137 | no more records than cards; each has the seven keys and no `source` |
| Naukri.PageOutcomeProperties | backend/scraper/naukri_scraper.py:148-150 | a page failure is raised again with its message; otherwise at most `max_jobs` records |
| Naukri.NaukriScraper.constructor | backend/scraper/naukri_scraper.py:16-24 | a new scraper keeps its headless flag and has no browser open |
| Naukri.NaukriScraper.SetupDriver | backend/scraper/naukri_scraper.py:26-41 | afterwards a browser is open |
| Naukri.NaukriScraper.CloseDriver | backend/scraper/naukri_scraper.py:43-47 | afterwards no browser is open, whatever the state before (so a second call changes nothing) |
| Naukri.NaukriScraper.ScrapeJobs | backend/scraper/naukri_scraper.py:49-153 | the outcome of the keyword's page, with the browser closed on every path |
| Naukri.NaukriScraper.ScrapeJobsByLocation | backend/scraper/naukri_scraper.py:155-243 | the outcome of the location page through the same card function as `ScrapeJobs`, browser closed on every path |
| LinkedIn.EncodeSpaces | backend/scraper/linkedin_scraper.py:70-71 | the encoded text has no space, is never shorter, and text without spaces is unchanged |
| LinkedIn.DecodeEncodeSpaces | backend/scraper/linkedin_scraper.py:70 | for text without '%', decoding `%20` gives the original back |
| LinkedIn.SearchUrl | backend/scraper/linkedin_scraper.py:73-76 | the URL always ends with the past-day filter; the location parameter is present for a non-empty location only |
| LinkedIn.SearchUrlLocationPart | backend/scraper/linkedin_scraper.py:73-76 | between the keyword and the filter lies "&location=" + the encoded location, or nothing when the location is empty |
| LinkedIn.Record | backend/scraper/linkedin_scraper.py:100-129 | missing elements give "N/A"; experience and salary are "N/A", source is "LinkedIn", description is "Job posted " + date |
| LinkedIn.Build | backend/scraper/linkedin_scraper.py:99-136 | a card yields a record exactly when its parsing does not raise |
| LinkedIn.PageOutcomeProperties | backend/scraper/linkedin_scraper.py:140-142 | never raises; a failed page gives []; at most `max_jobs` records, all tagged LinkedIn |
| LinkedIn.LinkedInScraper.CloseDriver | backend/scraper/linkedin_scraper.py:48-52 | afterwards no browser is open |
| LinkedIn.LinkedInScraper.ScrapeJobs | backend/scraper/linkedin_scraper.py:54-145 | the outcome of the search page, with the browser closed on every path |
| Unstop.CategoryUrl | backend/scraper/unstop_scraper.py:65-70 | "jobs" and "internships" have their own listing, any other category gives the competitions listing |
| Unstop.CardsOf | backend/scraper/unstop_scraper.py:86-88 | the first non-empty result of the three selectors |
| Unstop.AbsoluteUrl | backend/scraper/unstop_scraper.py:118-121 | the result is "N/A" or starts with "http"; "N/A" and absolute links stay as they are |
| Unstop.AbsoluteUrlIdempotent | backend/scraper/unstop_scraper.py:120-121 | completing a link twice is completing it once |
| Unstop.Description | backend/scraper/unstop_scraper.py:139 | "Deadline: " + deadline when one was found, else "Check Unstop for details" |
| Unstop.Record | backend/scraper/unstop_scraper.py:106-142 | company defaults to "Unstop", location to "Remote/Various"; experience "N/A"; source "Unstop" |
| Unstop.Build | backend/scraper/unstop_scraper.py:99-104 | no record exactly when the card raises or its title is missing or "N/A" |
| Unstop.PageOutcomeProperties | backend/scraper/unstop_scraper.py:93-155 | never raises; at most `max_jobs` records, none titled "N/A", each with an absolute or "N/A" URL |
| Unstop.UnstopScraper.CloseDriver | backend/scraper/unstop_scraper.py:43-47 | afterwards no browser is open |
| Unstop.UnstopScraper.ScrapeJobs | backend/scraper/unstop_scraper.py:49-158 | the outcome of the category page, with the browser closed on every path |
| Unstop.UnstopScraper.ScrapeInternships | backend/scraper/unstop_scraper.py:160-162 | the outcome of the internships listing page, browser closed |
| Unstop.UnstopScraper.ScrapeCompetitions | backend/scraper/unstop_scraper.py:164-166 | the outcome of the competitions listing page, browser closed |
| ScraperManager.SourceOutcomeProperties | backend/scraper/job_scraper_manager.py:65-78 | only Naukri can raise; an unknown name (compared in lower case) yields no records and no error; every source yields at most `max_jobs_per_source` |
| ScraperManager.Stamp | backend/scraper/job_scraper_manager.py:81-83 | the record gains the keyword and the time, and nothing else changes |
| ScraperManager.StampAll | backend/scraper/job_scraper_manager.py:81-83 | one stamped record per record, in order |
| ScraperManager.Runs | backend/scraper/job_scraper_manager.py:57 | one outcome per source name, in `sources` order |
| ScraperManager.Aggregate | backend/scraper/job_scraper_manager.py:94-103 | `success` is always true and `total_jobs` is the length of `jobs` |
| ScraperManager.FoldStep | backend/scraper/job_scraper_manager.py:85-92 | one more source appends its stamped records, sets its count and files its error |
| ScraperManager.GatheredAppend | backend/scraper/job_scraper_manager.py:85 | the job list is the concatenation of the sources' lists in `sources` order, each in its own order |
| ScraperManager.GatheredStamped | backend/scraper/job_scraper_manager.py:81-85 | every gathered record carries the query keyword and the time; if every source raised there are none |
| ScraperManager.ErrorsEmptyIff | backend/scraper/job_scraper_manager.py:101 | `errors` is empty (reported as None) exactly when no source raised |
| ScraperManager.ErrorsKeys | backend/scraper/job_scraper_manager.py:89-91 | every error is filed under the name of a source that raised |
| ScraperManager.CountsKeys | backend/scraper/job_scraper_manager.py:86-92 | `source_stats` has an entry for every source run, raising or not, and no other |
| ScraperManager.EntriesOfDistinct | backend/scraper/job_scraper_manager.py:86-92 | with distinct names, each source's count is its number of records (0 when it raised) and an error entry exists exactly for the sources that raised |
| ScraperManager.CountsSumToTotal | backend/scraper/job_scraper_manager.py:85-98 | with distinct names, the counts add up to `total_jobs` |
| ScraperManager.DomainKeyword | backend/scraper/job_scraper_manager.py:207-219 | the table's keyword for the lower-cased domain, else the domain as given |
| ScraperManager.DomainKeywordCaseInsensitive | backend/scraper/job_scraper_manager.py:219 | two spellings of a listed domain that differ only in letter case map to the same keyword |
| ScraperManager.JobScraperManager.constructor | backend/scraper/job_scraper_manager.py:19-26 | keeps the headless flag |
| ScraperManager.JobScraperManager.RunSource | backend/scraper/job_scraper_manager.py:63-78 | runs the scraper the lower-cased name selects, with Naukri's location search for a non-empty location |
| ScraperManager.JobScraperManager.StampJobs | backend/scraper/job_scraper_manager.py:81-83 | the loop stamps every record of a source |
| ScraperManager.JobScraperManager.Tally | backend/scraper/job_scraper_manager.py:80-92 | one pass of the loop appends, counts and files as the fold does for one more source |
| ScraperManager.JobScraperManager.ScrapeAllSources | backend/scraper/job_scraper_manager.py:28-103 | the result is the fold of the outcomes of `sources` (default naukri, linkedin, unstop) run in order |
| ScraperManager.JobScraperManager.ScrapeByDomain | backend/scraper/job_scraper_manager.py:189-225 | the aggregated scrape of the domain's keyword on the default sources |
| JobStore.ToRow | backend/utils/job_database.py:35-47 | present keys are kept; absent ones default to "N/A", "" or "Unknown"; the row is active with no domain |
| JobStore.RowsOf | backend/utils/job_database.py:33-48 | one row per job, in order |
| JobStore.NaukriRowIsUnknown | backend/utils/job_database.py:43 | a Naukri record is stored with source "Unknown" |
| JobStore.InsertReportProperties | backend/utils/job_database.py:29-57 | an insert succeeds iff there are jobs and the database is reachable, and then reports exactly the number of rows it added; otherwise it adds none; [] reports "No jobs to insert" |
| JobStore.InsertMessageCount | backend/utils/job_database.py:56 | the number in the success message reads back as the count inserted |
| JobStore.Filter | backend/utils/job_database.py:88-102 | exactly the rows that are active and pass every given filter, in table order |
| JobStore.QueryProperties | backend/utils/job_database.py:88-108 | only matching rows, newest first, at most `limit`; no row left out is newer than one kept; all of them when few match |
| JobStore.QueryTiesInTableOrder | backend/utils/job_database.py:105 | rows with equal `created_at` come out in table order |
| JobStore.Given | backend/utils/job_database.py:91-102 | a falsy filter argument is not applied |
| JobStore.SourceCountsProperties | backend/utils/job_database.py:202-205 | each present source has its number of rows, no other name has an entry, and the entries sum to the row count |
| JobStore.Active | backend/utils/job_database.py:191-200 | exactly the active rows |
| JobStore.Expire | backend/utils/job_database.py:230-233 | only `is_active` may change, and it ends true iff it was true and the row is not older than the cutoff |
| JobStore.ExpireAll | backend/utils/job_database.py:230-233 | the same rows, each expired against the cutoff |
| JobStore.ExpireAllIdempotent | backend/utils/job_database.py:228-233 | expiring twice is expiring once, and an inactive row never comes back |
| JobStore.FilterAllIsActive | backend/utils/job_database.py:169-174 | with no filter the query ranges over exactly the active rows |
| JobStore.JobDatabase.constructor | backend/utils/job_database.py:15-16 | a table and its reachability |
| JobStore.JobDatabase.InsertJobs | backend/utils/job_database.py:18-64 | the table grows by exactly the inserted rows, and the report is `InsertReport` |
| JobStore.JobDatabase.SearchJobs | backend/utils/job_database.py:66-112 | active rows passing each truthy filter, newest first, at most `limit`; [] on failure |
| JobStore.JobDatabase.GetJobsByDomain | backend/utils/job_database.py:132-156 | active rows of that domain; for a non-empty domain, the search with only the domain filter |
| JobStore.JobDatabase.GetRecentJobs | backend/utils/job_database.py:158-180 | the unfiltered search, which holds every active row when there are few |
| JobStore.JobDatabase.GetJobStats | backend/utils/job_database.py:182-214 | the count of active rows, per-source counts that sum to it, or zero and {} on failure |
| JobStore.JobDatabase.DeleteOldJobs | backend/utils/job_database.py:216-245 | rows created before the cutoff become inactive, none is removed, nothing else changes; a failure changes nothing |
| Background.KeywordRunConsistent | backend/utils/background_scraper.py:62-75 | a keyword succeeds iff its call does not raise; its count is its job list's length; an insert report exists exactly when jobs were found |
| Background.TotalsAgree | backend/utils/background_scraper.py:109-111 | with the database reachable both totals agree with the rows added; while it is down nothing is saved |
| Background.AppendResult | backend/utils/background_scraper.py:109-111 | one more result adds its share to the totals only when it succeeded |
| Background.RowsStep | backend/utils/background_scraper.py:70-71 | the table after one more keyword holds the rows of all keywords so far |
| Background.KeywordRuns | backend/utils/background_scraper.py:105-107 | one result per keyword, in list order; a crash does not stop the others |
| Background.AsyncKeywords | backend/utils/background_scraper.py:144-145 | the popular keywords only when none were given; an empty list stays empty |
| Background.BatchSavesAll | backend/utils/background_scraper.py:109-111 | a batch against a reachable database saves every record it scraped, one row each |
| Background.BackgroundJobScraper.constructor | backend/utils/background_scraper.py:36-45 | a manager with the same headless flag and the given database |
| Background.BackgroundJobScraper.ScrapeKeyword | backend/utils/background_scraper.py:47-83 | the three sources without a location; an insert only when jobs were found; an exception raised before the scrape becomes a crash result that stores nothing |
| Background.BackgroundJobScraper.ScrapeNext | backend/utils/background_scraper.py:105-111 | one pass of the batch loop adds one result and its share of the totals and rows |
| Background.BackgroundJobScraper.ScrapeEach | backend/utils/background_scraper.py:100-111 | the results of every keyword, the totals over the successful ones, and their rows added to the table |
| Background.BackgroundJobScraper.ScrapeAllPopularKeywords | backend/utils/background_scraper.py:85-134 | the batch over the 15 popular keywords, with `total_keywords` 15 |
| App.Extension | backend/app.py:36 | None iff there is no '.'; otherwise a dot-free suffix that follows a '.' |
| App.ExtensionUnique | backend/app.py:36 | only one suffix meets that description, so the extension is determined |
| App.AllowedFile | backend/app.py:33-36 | true iff there is a '.' and the text after the last one, lower-cased, is pdf, doc or docx |
| App.AllowedFileExamples | backend/app.py:33-36 | ".pdf", ".PDF" and ".Docx" are accepted after any name |
| App.KeywordBody | backend/app.py:133-138 | accepted iff the body is an object holding "keyword"; a falsy body or a missing key gives 400 "No keyword provided"; a truthy number or boolean raises |
| App.ScrapeJobsRequest | backend/app.py:132-144 | accepted iff the keyword is present and `max_jobs` (default 20) is an int in [1, 100] |
| App.ScrapeAllRequest | backend/app.py:174-188 | accepted iff the keyword is present and `max_jobs_per_source` (default 10) is an int in [1, 50]; sources and `save_to_db` default to the three sources and true |
| App.RangeCheckOnBoolsAndFloats | backend/app.py:143 | `true` passes the range check as 1 and `false` fails it; no float passes |
| App.SaveIfRequested | backend/app.py:201-209 | the database is written iff `save_to_db` is truthy and jobs were found; a missing client reports "Database not configured" |
| App.SearchKeyword | backend/app.py:336 | the domain, unless it is missing, empty or "Not Found" |
| App.MatchingSkills | backend/app.py:349 | a skill is listed iff its lower-case form occurs in the job text |
| App.MatchingSkillsSubsequence | backend/app.py:349 | the matching skills keep the resume's order |
| App.MatchingSkillsExtremes | backend/app.py:349-350 | all skills match iff the list is whole; none match iff it is empty |
| App.ScoreBounds | backend/app.py:350 | the score lies in [0, 100], is 100 iff all match and 0 iff none do |
| App.ScoreJobProperties | backend/app.py:346-352 | a scored job keeps its row, its score is in [0, 100], 100 iff every skill matches, 0 iff none |
| App.Annotate | backend/app.py:346-352 | the loop scores every fetched job, in order |
| App.Positive | backend/app.py:355 | exactly the jobs with a score above 0 |
| App.RankProperties | backend/app.py:354-359 | at most 50 jobs, all with a positive score, from the input, by non-increasing score; all of them when at most 50 qualify |
| App.RankStable | backend/app.py:354-359 | for every input, the kept jobs with one score are the first positive jobs with that score, in fetch order; all of them when at most 50 jobs score above 0 |
| App.RankIsTop | backend/app.py:359 | a positive job left out scores no higher than any job kept |
| App.Recommend | backend/app.py:345-359 | no skills gives the fetched rows unscored; otherwise at most 50 scored jobs, each a fetched row with its own score above 0 |
| App.ScrapeAndRecommend | backend/app.py:333-359 | the recommendation over the search by the derived keyword and location, limited to 100 rows |
| App.RecommendedFromSearch | backend/app.py:336-342 | every recommended job is an active row of the table whose title or description contains the domain, when a domain was used |
| App.SavedOverAllIsSavedTotal | backend/app.py:404-405 | summing `inserted_count` over all results equals summing it over the successful ones |
| App.KeywordsCount | backend/app.py:388-395 | the count of keywords the started thread scrapes: 15 when none were given, else the list's length |
| App.KeywordsCountAsWritten | backend/app.py:394 | the count as the route reports it: the list's length for a non-empty list, else 15 |
| App.KeywordsCountAsWrittenDiffers | backend/app.py:394 | the count as written differs from the scheduled count exactly for an explicit empty list |
| App.ScrapeListed | backend/app.py:398-402 | the route's loop gives one result per keyword, in order, and adds their rows |
| App.ScrapeBackground | backend/app.py:379-416 | async only reports the count as written, which is the number of keywords the thread scrapes except for an explicit empty list; a non-empty list is scraped keyword by keyword with both totals; otherwise the popular batch runs, succeeding over all 15 popular keywords, with totals equal to the sums over its per-keyword results and exactly those results' rows appended to the table |
| CandidateInfo.JsonSpan | backend/ai/extract_candidate_info.py:66-68 | a span exists iff a '}' follows some '{'; it runs from the first '{' to the last '}' |
| CandidateInfo.JsonSpanOfWrapped | backend/ai/extract_candidate_info.py:66-68 | text without braces around an object does not change the span |
| CandidateInfo.ParseInt | backend/ai/extract_candidate_info.py:76 | `int` on text succeeds iff the stripped text is one or more digits, optionally after a sign; unsigned digits read as their decimal value |
| CandidateInfo.ParseIntOfDecimal | backend/ai/extract_candidate_info.py:76 | the decimal text of a number parses back to that number |
| CandidateInfo.Truncate | backend/ai/extract_candidate_info.py:76 | `int` on a float rounds toward zero |
| CandidateInfo.PyInt | backend/ai/extract_candidate_info.py:76 | ints stay, null, lists and objects raise |
| CandidateInfo.FirstSkills | backend/ai/extract_candidate_info.py:78 | a list is cut to its first ten; only lists and text can be sliced |
| CandidateInfo.ErrorRecord | backend/ai/extract_candidate_info.py:86-94 | all fields at their defaults, skills [], and the reason |
| CandidateInfo.Normalise | backend/ai/extract_candidate_info.py:72-79 | each field read with its default; a failing `int` or slice gives the error record |
| CandidateInfo.ExtractCandidateInfo | backend/ai/extract_candidate_info.py:61-94 | every path is stated: a model error gives `ModelFailed`, a reply without a `{ … }` span gives `NoJson`, a decoder error gives `DecodeFailed` with its text, a decoded non-object gives `NotAnObject`, and a decoded object gives its normalised record; every failure is the all-defaults record |
| CandidateInfo.SkillsArePrefix | backend/ai/extract_candidate_info.py:78 | the kept skills are a prefix, of length at most 10, of the given list |
| CandidateInfo.WellFormedAnswer | backend/ai/extract_candidate_info.py:72-78 | years written as decimal text are read as that number, skills are cut to ten, a missing name is "Not Found" |
| UploadResume.Split | Frontend/src/pages/UploadResume.tsx:206 | at least one line, none holding '\n' |
| UploadResume.JoinSplit | Frontend/src/pages/UploadResume.tsx:206 | joining the lines gives the text back |
| UploadResume.SplitJoin | Frontend/src/pages/UploadResume.tsx:206 | splitting joined newline-free lines gives the lines back |
| UploadResume.RemoveStars | Frontend/src/pages/UploadResume.tsx:211 | the replacement never lengthens the text |
| UploadResume.RemoveStarsLeavesNone | Frontend/src/pages/UploadResume.tsx:211 | no "**" remains after the replacement |
| UploadResume.RemoveStarsUnchanged | Frontend/src/pages/UploadResume.tsx:211 | text without "**" is unchanged |
| UploadResume.RemoveStarsIdempotent | Frontend/src/pages/UploadResume.tsx:211 | replacing twice is replacing once |
| UploadResume.Classify | Frontend/src/pages/UploadResume.tsx:208-236 | an element's text never holds a newline the line did not |
| UploadResume.ClassifyProperties | Frontend/src/pages/UploadResume.tsx:208-236 | bold heading iff the line starts and ends with "**" (tried first, even "**" alone); otherwise marker + text is the line |
| UploadResume.DoubleHashIsSubheading | Frontend/src/pages/UploadResume.tsx:215-227 | a "## " line is an h3, not an h2 |
| UploadResume.Render | Frontend/src/pages/UploadResume.tsx:206-237 | one element per line, in line order |
| UploadResume.Shown | Frontend/src/pages/UploadResume.tsx:204-238 | an empty analysis shows nothing and any other text its rendered lines, so nothing is shown exactly for the empty text |
| UploadResume.RenderJoined | Frontend/src/pages/UploadResume.tsx:206 | rendering joined lines gives exactly one element per line |
| JobsPage.InitialQuery | Frontend/src/pages/Jobs.tsx:20 | the `search` parameter, or "" |
| JobsPage.KeepListed | Frontend/src/pages/Jobs.tsx:66-71 | a job is kept iff title, company or description contains the query, ignoring case |
| JobsPage.FilterJobs | Frontend/src/pages/Jobs.tsx:65-72 | an empty query lists every job unchanged; otherwise exactly the matching ones |
| JobsPage.FilterJobsSubsequence | Frontend/src/pages/Jobs.tsx:65-72 | the listed jobs keep their order |
| JobsPage.UnsearchedFields | Frontend/src/pages/Jobs.tsx:66-71 | location, salary and kind do not affect the match |
| JobsPage.QueryCaseIgnored | Frontend/src/pages/Jobs.tsx:68-70 | queries that differ only in letter case list the same jobs |

## Left out

- Browser work is not modelled: Selenium, the sleeps and scrolling, and the BeautifulSoup lookups. A page is an input whose lookups are already resolved to `Option<string>`, and a URL the page map does not hold stands for a failed load.
- `scrape_parallel` and the thread that `scrape_async` starts are not modelled (concurrency; the merge order depends on completion order). The async route models only its reply. Its promise that the table is unchanged holds only at the moment the route returns: the started thread goes on to write to the same table (backend/utils/background_scraper.py:147-152).
- Clocks are parameters. Every `datetime.now()` of one call is the single reading `now`, although the source reads the clock once per record. `created_at` is a given integer. `duration_seconds`, `started_at` and `completed_at` are not modelled.
- The `delete_old_jobs` cutoff works in seconds on the `created_at` clock; time zones and ISO text comparison are not modelled.
- Supabase is an in-memory table. Any failure of a call is one `outage` message. Row ids, `get_job_by_id` and the `select` column lists are not modelled. `ilike` wildcards (`%` and `_` inside a filter value) are not modelled. The keyword filter is built as the text of a PostgREST `or` filter (backend/utils/job_database.py:93). A keyword or domain holding `,`, `(` or `)` changes that filter or makes the call fail, which returns []. `JobStore.Matches` is a plain case-insensitive substring test and does not capture this.
- Rows with equal `created_at` come back in table order. The database leaves that order open; this is a modelling choice.
- `Sorting.SortDesc` is a function on values, not the in-place `list.sort` (same result, no aliasing).
- App.Score: exact rational `100 * matching / skills`, without float arithmetic or `round(..., 2)`. The rounding could merge scores or drop a positive one only with more than 10 000 skills.
- Case folding is ASCII only, in `lower()` and `toLowerCase()`. Unicode case mapping is not modelled. `strip()` removes exactly the characters Python's `str.isspace()` accepts.
- App.PyIn: a body that is a list or a string is handled as Python's `in`, but the text of the resulting exception is not kept (`ServerError`).
- CandidateInfo.Failure: only the kind of failure is kept, not Python's exception text. `int()` forms with underscores or non-ASCII digits are not modelled.
- The Gemini call and `json.loads` are parameters: the model's reply is a `Result<string>` and the decoder a function.
- `extract_text_from_resume` is not part of this model. `analyze_resume` and the `/api/analyze-text` route are not part of this model.
- Flask is not modelled: routing, CORS, the upload folder and file saving, status codes and the error handlers. Also outside the model are `request.get_json`, the `int(request.args...)` of the query routes, and the "No data provided" check of `/api/scrape-and-recommend`.
- After validation, `/api/scrape-jobs` calls the Naukri scraper, choosing the location search for a truthy location. The model covers that call as `ScraperManager.SourceOutcome`'s Naukri branch; there is no separate member for the route.
- Resume skills and background keywords are lists of text, and the domain and location are text. Other JSON values there are not modelled:
  - A text `resume_skills` is iterated character by character, and an object by its keys, so these become the skills.
  - A non-text skill raises at `skill.lower()`, but only once some job was fetched.
  - A non-text `domain` or `location` goes into the filter text as Python formats it.
- `/api/scrape-background` passes `max_jobs_per_source` on without checking it (backend/app.py:383). The model takes it as an integer; other JSON values are not modelled.
- `/api/scrape-background` reads `async` by Python truthiness (backend/app.py:384, 388). The model takes a boolean.
- `/api/scrape-all-sources` hands its `keyword` and `sources` to `scrape_all_sources` as they came in the body (backend/app.py:193-198). `App.ScrapeAllParams` keeps them as JSON values, while `ScraperManager.JobScraperManager.ScrapeAllSources` takes text and an optional list of text. No member models that call. What the model therefore leaves out:
  - A text `sources` is iterated character by character. Each character is an unknown source name, so it yields no jobs, a count of 0 and no error.
  - A non-text source name raises at `source.upper()` (backend/scraper/job_scraper_manager.py:60). That is inside the per-source `try`, so the source gets an error entry (backend/scraper/job_scraper_manager.py:89-91).
  - A list or object used as a source name also makes `errors[source] = …` raise, and that is outside the handler.
- ScraperManager.JobScraperManager.ScrapeAllSources: a source's outcome either raises before anything is recorded or is recorded in full. Two failures of the progress prints are not modelled:
  - The "Successfully scraped" print (backend/scraper/job_scraper_manager.py:87) runs after the source's jobs are added and its count is set. If it raised, the handler would set the count to 0 and add an error entry while the jobs stay in `jobs`. `total_jobs` would then exceed the sum of the counts, which `ScraperManager.CountsSumToTotal` and `ScraperManager.ErrorsEmptyIff` do not describe.
  - The handler's own print (backend/scraper/job_scraper_manager.py:90) is outside any `try`. An exception there would escape `scrape_all_sources`, while the model always returns the aggregate.
- Background.BackgroundJobScraper.ScrapeKeyword: a fault is modelled only as an exception raised before the scrape, which stores nothing. Two failures of the progress prints are not modelled:
  - The "Saved" print runs after `insert_jobs` (backend/utils/background_scraper.py:73), so rows would already be stored when it raises.
  - The handler's own print (backend/utils/background_scraper.py:78) is outside the `try`, so an exception there would propagate.
- Job records hold only text values; other JSON values in a record are not modelled.
- Where the code and the project description disagree, the model follows the code:
  - `insert_jobs` inserts every row, with no de-duplication or upsert.
  - The background batch has no single-flight guard.
  - Scores are not clamped, and ties are broken only by sort stability.
  - LinkedIn and Unstop swallow page failures, so those sources never appear in `errors`.

## Findings

| source | as written | input that shows it | evidently intended | confidence | as-written member | corrected member |
|---|---|---|---|---|---|---|
| backend/app.py:394 | `keywords_count` is `len(keywords) if keywords else 15`, so an explicit empty list is reported as 15 keywords, while `scrape_async([])` keeps the empty list and scrapes nothing (backend/utils/background_scraper.py:144-145) | body `{"async": true, "keywords": []}` | report the number of keywords the started thread scrapes: 0 here | not executed | App.KeywordsCountAsWritten, App.KeywordsCountAsWrittenDiffers, App.ScrapeBackground | App.KeywordsCount |

=== FILE: app.dfy ===
/** The HTTP layer's own logic: the upload extension check, the request
    validators of the two scrape routes, the decision to store a scrape, the
    recommendation (database search, skill matching, scoring and ranking) and
    the background route's synchronous totals and reported keyword count. */
module App {
  import opened Common
  import opened JobRecords
  import opened Sorting
  import opened JobStore
  import opened Background
  import opened ScraperManager

  // ------------------------------------------------------------ file uploads

  const AllowedExtensions: set<string> := {"pdf", "doc", "docx"}

  /** `filename.rsplit('.', 1)[1]`: the text after the last '.', if there is a '.'. */
  function Extension(filename: string): (ext: Option<string>)
    ensures ext.None? <==> '.' !in filename
    ensures ext.Some? ==> '.' !in ext.value && EndsWith(filename, "." + ext.value)
  {
    match LastIndexOf(filename, '.')
    case None => None
    case Some(i) =>
      assert filename[i..] == "." + filename[i + 1..];
      Some(filename[i + 1..])
  }

  /** A name has at most one dot-free suffix after a '.', so the extension is
      the only text that satisfies the contract of `Extension`. */
  lemma ExtensionUnique(filename: string, e1: string, e2: string)
    requires '.' !in e1 && EndsWith(filename, "." + e1)
    requires '.' !in e2 && EndsWith(filename, "." + e2)
    ensures e1 == e2
  {
    var n := |filename|;
    assert forall k :: n - |e1| <= k < n ==> filename[k] == e1[k - (n - |e1|)];
    assert forall k :: n - |e2| <= k < n ==> filename[k] == e2[k - (n - |e2|)];
    assert filename[n - |e1| - 1] == '.' && filename[n - |e2| - 1] == '.';
    assert |e1| == |e2|;
    assert e1 == filename[n - |e1|..] == e2;
  }

  /** `allowed_file`: a '.' is present and the extension, lower-cased, is known. */
  function AllowedFile(filename: string): (ok: bool)
    ensures ok <==> Extension(filename).Some? && Lower(Extension(filename).value) in AllowedExtensions
    ensures ok ==> '.' in filename
  {
    var ext := Extension(filename);
    ext.Some? && Lower(ext.value) in AllowedExtensions
  }

  /** Any name followed by ".pdf", ".PDF" or ".Docx" is accepted: the
      extension check ignores letter case. */
  lemma AllowedFileExamples(name: string)
    ensures AllowedFile(name + ".pdf") && AllowedFile(name + ".PDF") && AllowedFile(name + ".Docx")
  {
    assert ".pdf"[1..] == "pdf" && ".PDF"[1..] == "PDF" && ".Docx"[1..] == "Docx";
    assert Lower("pdf") == "pdf" && Lower("PDF") == "pdf" && Lower("Docx") == "docx" by {
      var a, b, c := Lower("pdf"), Lower("PDF"), Lower("Docx");
      assert |a| == 3 && a[0] == 'p' && a[1] == 'd' && a[2] == 'f';
      assert |b| == 3 && b[0] == 'p' && b[1] == 'd' && b[2] == 'f';
      assert |c| == 4 && c[0] == 'd' && c[1] == 'o' && c[2] == 'c' && c[3] == 'x';
    }
    AcceptedWith(name, ".pdf");
    AcceptedWith(name, ".PDF");
    AcceptedWith(name, ".Docx");
  }

  lemma AcceptedWith(name: string, dotExt: string)
    requires |dotExt| > 1 && dotExt[0] == '.' && '.' !in dotExt[1..]
    requires Lower(dotExt[1..]) in AllowedExtensions
    ensures AllowedFile(name + dotExt)
  {
    var f := name + dotExt;
    var ext := dotExt[1..];
    assert dotExt == "." + ext;
    assert f[|f| - |ext| - 1..] == "." + ext;
    ExtensionUnique(f, Extension(f).value, ext);
  }

  // ------------------------------------------------------- request validation

  /** The reply of a validated route before any scraping: the parameters it
      goes on with, a 400 with its message, or the route's 500 (an exception
      raised while reading the body; its text is not modelled). */
  datatype Checked<T> =
    | Accepted(params: T)
    | BadRequest(message: string)
    | ServerError

  /** Python's `key in data` for a truthy body, or None when the test raises
      (numbers and booleans are not containers). */
  function PyIn(key: string, data: Json): Option<bool> {
    match data
    case JObj(m) => Some(key in m)
    case JArr(xs) => Some(JStr(key) in xs)
    case JStr(s) => Some(Contains(s, key))
    case _ => None
  }

  /** `isinstance(x, int)`: a bool is an int in Python. */
  predicate IsPyInt(j: Json) {
    j.JInt? || j.JBool?
  }

  function PyIntValue(j: Json): int
    requires IsPyInt(j)
  {
    if j.JInt? then j.i else if j.b then 1 else 0
  }

  /** The range check of both scrape routes: an int between 1 and `hi`. */
  predicate CountInRange(j: Json, hi: int) {
    IsPyInt(j) && 1 <= PyIntValue(j) <= hi
  }

  /** The body check both scrape routes start with: `not data or 'keyword' not in data`,
      then `data['keyword']`, which raises unless the body is an object. Gives the
      body's fields when the route may go on. */
  function KeywordBody(body: Json): (r: Checked<map<string, Json>>)
    ensures r.Accepted? <==> body.JObj? && "keyword" in body.fields
    ensures r.Accepted? ==> r.params == body.fields
    ensures !Truthy(body) || (body.JObj? && "keyword" !in body.fields) ==> r == BadRequest("No keyword provided")
    ensures r.BadRequest? ==> r.message == "No keyword provided"
    ensures body.JInt? || body.JFloat? || body.JBool? ==> (r.ServerError? <==> Truthy(body))
  {
    if !Truthy(body) then BadRequest("No keyword provided")
    else match PyIn("keyword", body)
      case None => ServerError
      case Some(found) =>
        if !found then BadRequest("No keyword provided")
        else if body.JObj? then Accepted(body.fields)
        else ServerError
  }

  datatype ScrapeJobsParams = ScrapeJobsParams(keyword: Json, location: Json, maxJobs: int)

  /** `/api/scrape-jobs`: a keyword is required; `max_jobs` defaults to 20 and
      must be an int in [1, 100]. */
  function ScrapeJobsRequest(body: Json): (r: Checked<ScrapeJobsParams>)
    ensures r.Accepted? ==> body.JObj? && "keyword" in body.fields && r.params.keyword == body.fields["keyword"]
    ensures r.Accepted? ==> 1 <= r.params.maxJobs <= 100
    ensures r.Accepted? ==> r.params.location == Get(body.fields, "location", JNull)
    ensures body.JObj? && "keyword" in body.fields && "max_jobs" !in body.fields ==> r.Accepted? && r.params.maxJobs == 20
    ensures body.JObj? && "keyword" in body.fields && "max_jobs" in body.fields ==>
              (r.Accepted? <==> CountInRange(body.fields["max_jobs"], 100))
    ensures r.BadRequest? ==> r.message in {"No keyword provided", "max_jobs must be between 1 and 100"}
    ensures !Truthy(body) ==> r == BadRequest("No keyword provided")
  {
    match KeywordBody(body)
    case BadRequest(msg) => BadRequest(msg)
    case ServerError => ServerError
    case Accepted(m) =>
      var maxJobs := Get(m, "max_jobs", JInt(20));
      if !CountInRange(maxJobs, 100) then BadRequest("max_jobs must be between 1 and 100")
      else Accepted(ScrapeJobsParams(m["keyword"], Get(m, "location", JNull), PyIntValue(maxJobs)))
  }

  datatype ScrapeAllParams = ScrapeAllParams(keyword: Json, location: Json, maxJobsPerSource: int, sources: Json, saveToDb: Json)

  const DefaultSourcesJson: Json := JArr([JStr("naukri"), JStr("linkedin"), JStr("unstop")])

  /** `/api/scrape-all-sources`: a keyword is required; `max_jobs_per_source`
      defaults to 10 and must be an int in [1, 50]; `sources` defaults to the
      three sources and `save_to_db` to true. */
  function ScrapeAllRequest(body: Json): (r: Checked<ScrapeAllParams>)
    ensures r.Accepted? ==> body.JObj? && "keyword" in body.fields && r.params.keyword == body.fields["keyword"]
    ensures r.Accepted? ==> 1 <= r.params.maxJobsPerSource <= 50
    ensures r.Accepted? ==> r.params.location == Get(body.fields, "location", JNull)
    ensures r.Accepted? ==> r.params.sources == Get(body.fields, "sources", DefaultSourcesJson)
    ensures r.Accepted? ==> r.params.saveToDb == Get(body.fields, "save_to_db", JBool(true))
    ensures body.JObj? && "keyword" in body.fields && "max_jobs_per_source" !in body.fields ==>
              r.Accepted? && r.params.maxJobsPerSource == 10
    ensures body.JObj? && "keyword" in body.fields && "max_jobs_per_source" in body.fields ==>
              (r.Accepted? <==> CountInRange(body.fields["max_jobs_per_source"], 50))
    ensures r.BadRequest? ==> r.message in {"No keyword provided", "max_jobs_per_source must be between 1 and 50"}
    ensures !Truthy(body) ==> r == BadRequest("No keyword provided")
  {
    match KeywordBody(body)
    case BadRequest(msg) => BadRequest(msg)
    case ServerError => ServerError
    case Accepted(m) =>
      var perSource := Get(m, "max_jobs_per_source", JInt(10));
      if !CountInRange(perSource, 50) then BadRequest("max_jobs_per_source must be between 1 and 50")
      else Accepted(ScrapeAllParams(m["keyword"], Get(m, "location", JNull), PyIntValue(perSource),
                                    Get(m, "sources", DefaultSourcesJson), Get(m, "save_to_db", JBool(true))))
  }

  /** `true` passes both range checks as the count 1, `false` fails them, and
      a float never passes even when it is whole. */
  lemma RangeCheckOnBoolsAndFloats(hi: int)
    requires hi >= 1
    ensures CountInRange(JBool(true), hi) && PyIntValue(JBool(true)) == 1
    ensures !CountInRange(JBool(false), hi)
    ensures forall f :: !CountInRange(JFloat(f), hi)
  {
  }

  /** Storing the scrape of `/api/scrape-all-sources`: only when `save_to_db`
      is truthy and some job was found. `db` is null when the database client
      cannot be created, which the route reports as "Database not configured". */
  method SaveIfRequested(db: JobDatabase?, saveToDb: Json, jobs: seq<Posting>, now: string, createdAt: int)
    returns (database: Option<InsertResult>)
    modifies db
    ensures database.Some? <==> Truthy(saveToDb) && jobs != []
    ensures db != null ==> db.outage == old(db.outage)
    ensures db != null && database.None? ==> db.rows == old(db.rows)
    ensures db == null && database.Some? ==> database.value == InsertResult(false, None, "Database not configured")
    ensures db != null && database.Some? ==>
              database.value == InsertReport(jobs, old(db.outage))
              && db.rows == old(db.rows) + InsertedRows(jobs, old(db.outage), now, createdAt)
  {
    database := None;
    if Truthy(saveToDb) && jobs != [] {
      if db == null {
        database := Some(InsertResult(false, None, "Database not configured"));
      } else {
        var report := db.InsertJobs(jobs, now, createdAt);
        database := Some(report);
      }
    }
  }

  // ---------------------------------------------------------- recommendation

  const RecommendFetchLimit: int := 100
  const RecommendTop: int := 50

  /** The search keyword: the domain, unless it is missing, empty or "Not Found". */
  function SearchKeyword(domain: Option<string>): (keyword: Option<string>)
    ensures keyword.Some? <==> Present(domain) && domain.value != "Not Found"
    ensures keyword.Some? ==> keyword == domain
  {
    if Present(domain) && domain.value != "Not Found" then domain else None
  }

  /** The text a job is matched against. */
  function JobText(r: Row): (t: string)
    ensures |t| == |r.title| + 1 + |r.description|
  {
    Lower(r.title + " " + r.description)
  }

  /** Whether a skill occurs in the job text, ignoring ASCII letter case. */
  predicate SkillMatches(skill: string, text: string) {
    Contains(text, Lower(skill))
  }

  /** The resume skills, in their order, that occur in `text`. */
  function MatchingSkills(skills: seq<string>, text: string): (ms: seq<string>)
    ensures |ms| <= |skills|
    ensures forall s :: s in ms <==> s in skills && SkillMatches(s, text)
  {
    if skills == [] then []
    else (if SkillMatches(skills[0], text) then [skills[0]] else []) + MatchingSkills(skills[1..], text)
  }

  lemma {:induction false} MatchingSkillsSubsequence(skills: seq<string>, text: string)
    ensures IsSubsequence(MatchingSkills(skills, text), skills)
  {
    if skills != [] {
      MatchingSkillsSubsequence(skills[1..], text);
      var rest := MatchingSkills(skills[1..], text);
      if SkillMatches(skills[0], text) {
        assert ([skills[0]] + rest)[1..] == rest;
      } else {
        assert [] + rest == rest;
      }
    }
  }

  /** Every skill matches exactly when the match list is the whole skill list,
      and none matches exactly when it is empty. */
  lemma {:induction false} MatchingSkillsExtremes(skills: seq<string>, text: string)
    ensures |MatchingSkills(skills, text)| == |skills| <==> forall s :: s in skills ==> SkillMatches(s, text)
    ensures MatchingSkills(skills, text) == [] <==> forall s :: s in skills ==> !SkillMatches(s, text)
  {
    if skills != [] {
      MatchingSkillsExtremes(skills[1..], text);
      assert forall s :: s in skills <==> s == skills[0] || s in skills[1..];
      if !SkillMatches(skills[0], text) {
        assert |MatchingSkills(skills[1..], text)| <= |skills[1..]|;
      }
    }
  }

  /** A job as the recommendation returns it: the row with `match_score` and
      `matching_skills` added. */
  datatype ScoredJob = ScoredJob(row: Row, matchScore: real, matchingSkills: seq<string>)

  /** The exact score 100 * |matching| / |skills| (the route rounds it to two
      decimals for display only after it is computed). */
  function Score(matching: nat, total: nat): real
    requires total > 0
  {
    ((matching as real) / (total as real)) * 100.0
  }

  function ScoreJob(skills: seq<string>, r: Row): ScoredJob
    requires skills != []
  {
    var ms := MatchingSkills(skills, JobText(r));
    ScoredJob(r, Score(|ms|, |skills|), ms)
  }

  /** The score lies in [0, 100]; it is 100 exactly when every skill matches
      and 0 exactly when none does. */
  lemma ScoreJobProperties(skills: seq<string>, r: Row)
    requires skills != []
    ensures var s := ScoreJob(skills, r);
            && s.row == r
            && 0.0 <= s.matchScore <= 100.0
            && (s.matchScore == 100.0 <==> forall k :: k in skills ==> SkillMatches(k, JobText(r)))
            && (s.matchScore == 0.0 <==> forall k :: k in skills ==> !SkillMatches(k, JobText(r)))
            && (forall k :: k in s.matchingSkills <==> k in skills && SkillMatches(k, JobText(r)))
  {
    var ms := MatchingSkills(skills, JobText(r));
    MatchingSkillsExtremes(skills, JobText(r));
    ScoreBounds(|ms|, |skills|);
  }

  lemma ScoreBounds(m: nat, n: nat)
    requires 0 < n && m <= n
    ensures 0.0 <= Score(m, n) <= 100.0
    ensures Score(m, n) == 100.0 <==> m == n
    ensures Score(m, n) == 0.0 <==> m == 0
  {
    var q := (m as real) / (n as real);
    assert q * (n as real) == m as real;
    if m == n {
      assert q == 1.0;
    } else {
      assert q < 1.0;
    }
  }

  /** The loop that adds `match_score` and `matching_skills` to every fetched job. */
  method Annotate(skills: seq<string>, jobs: seq<Row>) returns (scored: seq<ScoredJob>)
    requires skills != []
    ensures |scored| == |jobs|
    ensures forall i :: 0 <= i < |jobs| ==> scored[i] == ScoreJob(skills, jobs[i])
  {
    scored := [];
    for i := 0 to |jobs|
      invariant |scored| == i
      invariant forall k :: 0 <= k < i ==> scored[k] == ScoreJob(skills, jobs[k])
    {
      var text := JobText(jobs[i]);
      var matching := MatchingSkills(skills, text);
      scored := scored + [ScoredJob(jobs[i], Score(|matching|, |skills|), matching)];
    }
  }

  function MatchScore(j: ScoredJob): real {
    j.matchScore
  }

  /** The jobs with a score above 0, in their order. */
  function Positive(jobs: seq<ScoredJob>): (ps: seq<ScoredJob>)
    ensures forall j :: j in ps <==> j in jobs && j.matchScore > 0.0
    ensures |ps| <= |jobs|
  {
    if jobs == [] then []
    else (if jobs[0].matchScore > 0.0 then [jobs[0]] else []) + Positive(jobs[1..])
  }

  /** Filter, stable sort by score (highest first) and keep the first 50. */
  function Rank(jobs: seq<ScoredJob>): seq<ScoredJob> {
    Take(SortDesc(Positive(jobs), MatchScore), RecommendTop)
  }

  /** What the ranking keeps: at most 50 jobs, all with a positive score, taken
      from the input, by non-increasing score; when at most 50 jobs have a
      positive score they are all kept. */
  lemma RankProperties(jobs: seq<ScoredJob>)
    ensures |Rank(jobs)| <= RecommendTop
    ensures forall j :: j in Rank(jobs) ==> j in jobs && j.matchScore > 0.0
    ensures SortedDesc(Rank(jobs), MatchScore)
    ensures |Positive(jobs)| <= RecommendTop ==> multiset(Rank(jobs)) == multiset(Positive(jobs))
  {
    var sorted := SortDesc(Positive(jobs), MatchScore);
    var top := Take(sorted, RecommendTop);
    forall j | j in top
      ensures j in jobs && j.matchScore > 0.0
    {
      assert j in multiset(sorted);
    }
    assert SortedDesc(top, MatchScore) by {
      assert top == sorted[..|top|];
    }
  }

  /** Jobs with equal scores keep the order in which the search returned them:
      of the positive jobs with score `v`, the ranking keeps the first ones, in
      fetch order, and all of them when at most 50 jobs qualify. */
  lemma RankStable(jobs: seq<ScoredJob>, v: real)
    ensures var kept := WithKey(Rank(jobs), MatchScore, v);
            |kept| <= |WithKey(Positive(jobs), MatchScore, v)| && kept == WithKey(Positive(jobs), MatchScore, v)[..|kept|]
    ensures |Positive(jobs)| <= RecommendTop ==> WithKey(Rank(jobs), MatchScore, v) == WithKey(Positive(jobs), MatchScore, v)
  {
    TakeSortedStable(Positive(jobs), MatchScore, RecommendTop, v);
    SortDescStable(Positive(jobs), MatchScore, v);
  }

  /** A positive-scored job left out of the top 50 scores no higher than any job kept. */
  lemma RankIsTop(jobs: seq<ScoredJob>, x: ScoredJob)
    requires x in jobs && x.matchScore > 0.0 && x !in Rank(jobs)
    ensures forall y :: y in Rank(jobs) ==> y.matchScore >= x.matchScore
  {
    TakeSortedIsTop(Positive(jobs), MatchScore, RecommendTop, x);
  }

  /** The `jobs` of a recommendation: the fetched rows as they are when the
      resume has no skills, else the scored and ranked jobs. */
  datatype Recommendation = Unscored(rows: seq<Row>) | Ranked(jobs: seq<ScoredJob>)

  function Recommend(skills: seq<string>, fetched: seq<Row>): (r: Recommendation)
    ensures skills == [] <==> r.Unscored?
    ensures r.Unscored? ==> r.rows == fetched
    ensures r.Ranked? ==> |r.jobs| <= RecommendTop && |r.jobs| <= |fetched|
    ensures r.Ranked? ==> forall j :: j in r.jobs ==> j.row in fetched && j == ScoreJob(skills, j.row) && j.matchScore > 0.0
  {
    if skills == [] then Unscored(fetched)
    else
      var scored := seq(|fetched|, i requires 0 <= i < |fetched| => ScoreJob(skills, fetched[i]));
      RankProperties(scored);
      Ranked(Rank(scored))
  }

  /** `/api/scrape-and-recommend` once the body is read: search the table by the
      derived keyword and the location (at most 100 rows), then score and rank. */
  method ScrapeAndRecommend(db: JobDatabase, skills: seq<string>, domain: Option<string>, location: Option<string>)
    returns (rec: Recommendation)
    ensures rec == Recommend(skills, db.SearchJobs(SearchKeyword(domain), location, limit := RecommendFetchLimit))
  {
    var fetched := db.SearchJobs(SearchKeyword(domain), location, limit := RecommendFetchLimit);
    if skills == [] {
      return Unscored(fetched);
    }
    var scored := Annotate(skills, fetched);
    assert scored == seq(|fetched|, i requires 0 <= i < |fetched| => ScoreJob(skills, fetched[i]));
    rec := Ranked(Rank(scored));
  }

  /** Every recommended job comes from the search: active, and containing the
      domain in its title or description when a domain was used. */
  lemma RecommendedFromSearch(db: JobDatabase, skills: seq<string>, domain: Option<string>, location: Option<string>, j: ScoredJob)
    requires var rec := Recommend(skills, db.SearchJobs(SearchKeyword(domain), location, limit := RecommendFetchLimit));
             rec.Ranked? && j in rec.jobs
    ensures j.row in db.rows && j.row.isActive
    ensures Present(domain) && domain.value != "Not Found" ==>
              ContainsIgnoreCase(j.row.title, domain.value) || ContainsIgnoreCase(j.row.description, domain.value)
  {
  }

  // ------------------------------------------------------- background route

  /** `/api/scrape-background`'s replies: the thread was started for a number
      of keywords; the keywords given were scraped one after the other; or the
      popular keywords were scraped as a batch. */
  datatype BackgroundReply =
    | Started(keywordsCount: nat)
    | Listed(totalJobsScraped: nat, totalJobsSaved: nat, results: seq<KeywordResult>)
    | Batch(summary: Summary)

  /** `sum(r.get('database', {}).get('inserted_count', 0) for r in results)`:
      the saved count over every result, successful or not. */
  function SavedOverAll(results: seq<KeywordResult>): nat {
    if results == [] then 0 else SavedOverAll(results[..|results| - 1]) + SavedCount(results[|results| - 1])
  }

  /** Summing over all results gives the same total as summing over the
      successful ones, because a crashed keyword has no insert report. */
  lemma {:induction false} SavedOverAllIsSavedTotal(results: seq<KeywordResult>, outage: Option<string>)
    requires forall i :: 0 <= i < |results| ==> Consistent(results[i], outage)
    ensures SavedOverAll(results) == SavedTotal(results)
  {
    if results != [] {
      var init := results[..|results| - 1];
      assert forall i :: 0 <= i < |init| ==> init[i] == results[i];
      SavedOverAllIsSavedTotal(init, outage);
      assert Consistent(results[|results| - 1], outage);
    }
  }

  /** The count the asynchronous reply reports, as written: the given list's
      length when it is non-empty, otherwise the number of popular keywords. */
  function KeywordsCountAsWritten(keywords: Option<seq<string>>): (n: nat)
    ensures keywords.Some? && keywords.value != [] ==> n == |keywords.value|
    ensures keywords.None? || keywords == Some([]) ==> n == |PopularKeywords| == 15
  {
    if keywords.Some? && keywords.value != [] then |keywords.value| else |PopularKeywords|
  }

  /** The number of keywords the started thread actually scrapes. */
  function KeywordsCount(keywords: Option<seq<string>>): (n: nat)
    ensures keywords.None? ==> n == 15
    ensures keywords.Some? ==> n == |keywords.value|
  {
    |AsyncKeywords(keywords)|
  }

  /** The reported count is right except for an explicit empty list, which
      is reported as 15 keywords although nothing is scraped. */
  lemma KeywordsCountAsWrittenDiffers(keywords: Option<seq<string>>)
    ensures KeywordsCountAsWritten(keywords) == KeywordsCount(keywords) <==> keywords != Some([])
    ensures KeywordsCountAsWritten(Some([])) == 15 && |AsyncKeywords(Some([]))| == 0
  {
  }

  /** The route's own loop over the given keywords: one `scrape_keyword` call each. */
  method ScrapeListed(scraper: BackgroundJobScraper, web: Web, keywords: seq<string>, now: string, createdAt: int,
                      faults: map<string, string>, maxJobsPerSource: int)
    returns (results: seq<KeywordResult>)
    modifies scraper.db
    ensures scraper.db.outage == old(scraper.db.outage)
    ensures results == KeywordRuns(web, keywords, maxJobsPerSource, now, faults, old(scraper.db.outage))
    ensures scraper.db.rows == old(scraper.db.rows) + AllRowsAdded(results, old(scraper.db.outage), now, createdAt)
  {
    var db := scraper.db;
    ghost var outage := db.outage;
    ghost var base := db.rows;
    ghost var expected := KeywordRuns(web, keywords, maxJobsPerSource, now, faults, outage);
    results := [];
    var i := 0;
    while i < |keywords|
      invariant 0 <= i <= |keywords|
      invariant db.outage == outage
      invariant results == expected[..i]
      invariant db.rows == base + AllRowsAdded(results, outage, now, createdAt)
    {
      ghost var rowsBefore := db.rows;
      var result := scraper.ScrapeKeyword(web, keywords[i], now, createdAt, FaultOf(faults, keywords[i]), maxJobsPerSource);
      RowsStep(base, rowsBefore, db.rows, results, result, outage, now, createdAt);
      PrefixStep(expected, i);
      results := results + [result];
      i := i + 1;
    }
    assert expected[..i] == expected;
  }

  /** `/api/scrape-background` after the body is read. With `async` the thread
      is only started (its work is not modelled) and the keyword count reported
      as the route computes it, which is wrong for an explicit empty list;
      otherwise a non-empty keyword list is scraped keyword by keyword and
      anything else runs the popular-keyword batch. */
  method ScrapeBackground(scraper: BackgroundJobScraper, web: Web, keywords: Option<seq<string>>, runAsync: bool,
                          now: string, createdAt: int, faults: map<string, string>, maxJobsPerSource: int := 5)
    returns (reply: BackgroundReply)
    modifies scraper.db
    ensures scraper.db.outage == old(scraper.db.outage)
    ensures runAsync ==> reply == Started(KeywordsCountAsWritten(keywords)) && scraper.db.rows == old(scraper.db.rows)
    ensures runAsync ==> (reply.keywordsCount == |AsyncKeywords(keywords)| <==> keywords != Some([]))
    ensures !runAsync && keywords.Some? && keywords.value != [] ==>
              && reply.Listed?
              && reply.results == KeywordRuns(web, keywords.value, maxJobsPerSource, now, faults, old(scraper.db.outage))
              && reply.totalJobsScraped == ScrapedTotal(reply.results)
              && reply.totalJobsSaved == SavedTotal(reply.results)
              && scraper.db.rows == old(scraper.db.rows) + AllRowsAdded(reply.results, old(scraper.db.outage), now, createdAt)
    ensures !runAsync && (keywords.None? || keywords.value == []) ==>
              && reply.Batch?
              && reply.summary.results == KeywordRuns(web, PopularKeywords, maxJobsPerSource, now, faults, old(scraper.db.outage))
              && reply.summary.success && reply.summary.totalKeywords == |PopularKeywords| == 15
              && reply.summary.totalJobsScraped == ScrapedTotal(reply.summary.results)
              && reply.summary.totalJobsSaved == SavedTotal(reply.summary.results)
              && scraper.db.rows == old(scraper.db.rows) + AllRowsAdded(reply.summary.results, old(scraper.db.outage), now, createdAt)
  {
    if runAsync {
      KeywordsCountAsWrittenDiffers(keywords);
      return Started(KeywordsCountAsWritten(keywords));
    }
    if keywords.Some? && keywords.value != [] {
      var results := ScrapeListed(scraper, web, keywords.value, now, createdAt, faults, maxJobsPerSource);
      ghost var outage := old(scraper.db.outage);
      forall k | 0 <= k < |results|
        ensures Consistent(results[k], outage)
      {
        KeywordRunConsistent(web, keywords.value[k], maxJobsPerSource, now, FaultOf(faults, keywords.value[k]), outage);
      }
      SavedOverAllIsSavedTotal(results, outage);
      reply := Listed(ScrapedTotal(results), SavedOverAll(results), results);
    } else {
      var summary := scraper.ScrapeAllPopularKeywords(web, now, createdAt, faults, maxJobsPerSource);
      reply := Batch(summary);
    }
  }
}

=== FILE: background.dfy ===
/** The background batch: scrapes the three default sources for one keyword and
    stores what it found, and repeats that for the fixed list of popular
    keywords, accumulating totals over the keywords that completed. */
module Background {
  import opened Common
  import opened JobRecords
  import opened ScraperManager
  import opened JobStore

  const PopularKeywords: seq<string> := [
    "software developer",
    "data scientist",
    "python developer",
    "full stack developer",
    "frontend developer",
    "backend developer",
    "machine learning engineer",
    "data analyst",
    "devops engineer",
    "ui ux designer",
    "product manager",
    "business analyst",
    "cybersecurity engineer",
    "cloud engineer",
    "mobile app developer"]

  /** What `scrape_keyword` returns: the aggregated scrape with the insert
      report when something was inserted, or the exception that ended the call. */
  datatype KeywordResult =
    | Completed(scrape: Aggregation, database: Option<InsertResult>)
    | Crashed(keyword: string, error: string)
  {
    predicate Success() {
      Completed? && scrape.success
    }
  }

  /** What `scrape_all_popular_keywords` returns (without its clock readings). */
  datatype Summary = Summary(success: bool, totalKeywords: nat, totalJobsScraped: nat, totalJobsSaved: nat, results: seq<KeywordResult>)

  /** The result of one keyword: a crash when `fault` holds the exception the
      call raises, otherwise the scrape of the three sources without a location
      and, when it found records, the report of storing them. */
  function KeywordRun(web: Web, keyword: string, maxJobs: int, now: string, fault: Option<string>, outage: Option<string>): KeywordResult {
    if fault.Some? then Crashed(keyword, fault.value)
    else
      var scrape := Aggregate(Runs(web, DefaultSources, keyword, None, maxJobs), keyword, None, now);
      Completed(scrape, if scrape.jobs != [] then Some(InsertReport(scrape.jobs, outage)) else None)
  }

  /** The rows one keyword adds to the table. */
  function RowsAdded(r: KeywordResult, outage: Option<string>, now: string, createdAt: int): seq<Row> {
    if r.Completed? then InsertedRows(r.scrape.jobs, outage, now, createdAt) else []
  }

  /** A keyword result as the batch produces it: the count is the length of the
      job list, and an insert report exists exactly when there were jobs. */
  ghost predicate Consistent(r: KeywordResult, outage: Option<string>) {
    r.Completed? ==>
      && r.scrape.success
      && r.scrape.totalJobs == |r.scrape.jobs|
      && r.database == (if r.scrape.jobs != [] then Some(InsertReport(r.scrape.jobs, outage)) else None)
  }

  lemma KeywordRunConsistent(web: Web, keyword: string, maxJobs: int, now: string, fault: Option<string>, outage: Option<string>)
    ensures Consistent(KeywordRun(web, keyword, maxJobs, now, fault, outage), outage)
    ensures KeywordRun(web, keyword, maxJobs, now, fault, outage).Success() <==> fault.None?
  {
  }

  /** `inserted_count` of a result, 0 when it has none. */
  function SavedCount(r: KeywordResult): nat {
    if r.Completed? && r.database.Some? && r.database.value.insertedCount.Some? then r.database.value.insertedCount.value else 0
  }

  /** `total_jobs_scraped`: the sum of `total_jobs` over the successful results. */
  function ScrapedTotal(results: seq<KeywordResult>): nat {
    if results == [] then 0
    else
      var last := results[|results| - 1];
      ScrapedTotal(results[..|results| - 1]) + (if last.Success() then last.scrape.totalJobs else 0)
  }

  /** `total_jobs_saved`: the sum of `inserted_count` over the successful results. */
  function SavedTotal(results: seq<KeywordResult>): nat {
    if results == [] then 0
    else
      var last := results[|results| - 1];
      SavedTotal(results[..|results| - 1]) + (if last.Success() then SavedCount(last) else 0)
  }

  /** Everything the results added to the table, in keyword order. */
  function AllRowsAdded(results: seq<KeywordResult>, outage: Option<string>, now: string, createdAt: int): seq<Row> {
    if results == [] then []
    else AllRowsAdded(results[..|results| - 1], outage, now, createdAt) + RowsAdded(results[|results| - 1], outage, now, createdAt)
  }

  /** With the database reachable every scraped record is saved, so both totals
      agree and equal the number of rows added; while it is unreachable nothing
      is saved and no row is added. */
  lemma {:induction false} TotalsAgree(results: seq<KeywordResult>, outage: Option<string>, now: string, createdAt: int)
    requires forall i :: 0 <= i < |results| ==> Consistent(results[i], outage)
    ensures outage.None? ==> SavedTotal(results) == ScrapedTotal(results) == |AllRowsAdded(results, outage, now, createdAt)|
    ensures outage.Some? ==> SavedTotal(results) == 0 && AllRowsAdded(results, outage, now, createdAt) == []
  {
    if results != [] {
      var init := results[..|results| - 1];
      var last := results[|results| - 1];
      assert forall i :: 0 <= i < |init| ==> init[i] == results[i];
      TotalsAgree(init, outage, now, createdAt);
      assert Consistent(last, outage);
      if last.Completed? {
        InsertReportProperties(last.scrape.jobs, outage, now, createdAt);
      }
    }
  }

  /** One more result: the totals and the added rows grow by its share. */
  lemma AppendResult(results: seq<KeywordResult>, r: KeywordResult)
    ensures ScrapedTotal(results + [r]) == ScrapedTotal(results) + (if r.Success() then r.scrape.totalJobs else 0)
    ensures SavedTotal(results + [r]) == SavedTotal(results) + (if r.Success() then SavedCount(r) else 0)
  {
    assert (results + [r])[..|results|] == results;
  }

  /** The table after one more keyword holds the rows of all keywords so far. */
  lemma RowsStep(base: seq<Row>, before: seq<Row>, after: seq<Row>, results: seq<KeywordResult>, r: KeywordResult,
                 outage: Option<string>, now: string, createdAt: int)
    requires before == base + AllRowsAdded(results, outage, now, createdAt)
    requires after == before + RowsAdded(r, outage, now, createdAt)
    ensures after == base + AllRowsAdded(results + [r], outage, now, createdAt)
  {
    AllRowsAddedAppend(results, r, outage, now, createdAt);
    var earlier, added := AllRowsAdded(results, outage, now, createdAt), RowsAdded(r, outage, now, createdAt);
    assert (base + earlier) + added == base + (earlier + added);
  }

  lemma AllRowsAddedAppend(results: seq<KeywordResult>, r: KeywordResult, outage: Option<string>, now: string, createdAt: int)
    ensures AllRowsAdded(results + [r], outage, now, createdAt) == AllRowsAdded(results, outage, now, createdAt) + RowsAdded(r, outage, now, createdAt)
  {
    assert (results + [r])[..|results|] == results;
  }

  /** The exception a keyword's call raises, if `faults` names one for it. */
  function FaultOf(faults: map<string, string>, keyword: string): Option<string> {
    if keyword in faults then Some(faults[keyword]) else None
  }

  /** The results of a batch over `keywords`, one per keyword in list order. */
  function KeywordRuns(web: Web, keywords: seq<string>, maxJobs: int, now: string, faults: map<string, string>, outage: Option<string>): (rs: seq<KeywordResult>)
    ensures |rs| == |keywords|
    ensures forall i :: 0 <= i < |keywords| ==>
              rs[i] == KeywordRun(web, keywords[i], maxJobs, now, FaultOf(faults, keywords[i]), outage)
  {
    seq(|keywords|, i requires 0 <= i < |keywords| => KeywordRun(web, keywords[i], maxJobs, now, FaultOf(faults, keywords[i]), outage))
  }

  /** `scrape_async`'s keyword list: the popular keywords only when none were
      given; an empty list stays empty. */
  function AsyncKeywords(keywords: Option<seq<string>>): (ks: seq<string>)
    ensures keywords.None? ==> ks == PopularKeywords
    ensures keywords.Some? ==> ks == keywords.value
  {
    if keywords.None? then PopularKeywords else keywords.value
  }

  class BackgroundJobScraper {
    const headless: bool
    const manager: JobScraperManager
    const db: JobDatabase

    constructor(headless: bool, db: JobDatabase)
      ensures this.headless == headless && this.db == db && manager.headless == headless
    {
      this.headless := headless;
      this.db := db;
      manager := new JobScraperManager(headless);
    }

    /** `scrape_keyword`: `fault` is an exception the call raises before the
        scrape starts (the opening progress print is the statement in that
        position), caught by the handler and turned into a crash result that
        stores nothing. */
    method ScrapeKeyword(web: Web, keyword: string, now: string, createdAt: int, fault: Option<string>, maxJobs: int := 5)
      returns (result: KeywordResult)
      modifies db
      ensures db.outage == old(db.outage)
      ensures result == KeywordRun(web, keyword, maxJobs, now, fault, old(db.outage))
      ensures db.rows == old(db.rows) + RowsAdded(result, old(db.outage), now, createdAt)
    {
      if fault.Some? {
        assert db.rows + [] == db.rows;
        return Crashed(keyword, fault.value);
      }
      var scrape := manager.ScrapeAllSources(web, keyword, now, None, maxJobs, Some(DefaultSources));
      if scrape.jobs != [] {
        var report := db.InsertJobs(scrape.jobs, now, createdAt);
        result := Completed(scrape, Some(report));
      } else {
        result := Completed(scrape, None);
        assert db.rows + [] == db.rows;
      }
    }

    /** One pass of the batch loop: the keyword's result is appended and the
        totals and the table grow by its share. */
    method ScrapeNext(web: Web, keyword: string, now: string, createdAt: int, faults: map<string, string>, maxJobs: int,
                      results: seq<KeywordResult>, totalScraped: nat, totalSaved: nat, ghost base: seq<Row>)
      returns (results': seq<KeywordResult>, totalScraped': nat, totalSaved': nat)
      requires totalScraped == ScrapedTotal(results) && totalSaved == SavedTotal(results)
      requires db.rows == base + AllRowsAdded(results, db.outage, now, createdAt)
      modifies db
      ensures db.outage == old(db.outage)
      ensures results' == results + [KeywordRun(web, keyword, maxJobs, now, FaultOf(faults, keyword), old(db.outage))]
      ensures totalScraped' == ScrapedTotal(results') && totalSaved' == SavedTotal(results')
      ensures db.rows == base + AllRowsAdded(results', old(db.outage), now, createdAt)
    {
      ghost var rowsBefore := db.rows;
      var result := ScrapeKeyword(web, keyword, now, createdAt, FaultOf(faults, keyword), maxJobs);
      AppendResult(results, result);
      RowsStep(base, rowsBefore, db.rows, results, result, old(db.outage), now, createdAt);
      results' := results + [result];
      totalScraped', totalSaved' := totalScraped, totalSaved;
      if result.Success() {
        totalScraped' := totalScraped + result.scrape.totalJobs;
        totalSaved' := totalSaved + SavedCount(result);
      }
    }

    /** The loop of `scrape_all_popular_keywords` over a keyword list, with
        `faults` naming the keywords whose call raises; a crash does not stop the loop. */
    method ScrapeEach(web: Web, keywords: seq<string>, now: string, createdAt: int, faults: map<string, string>, maxJobs: int)
      returns (results: seq<KeywordResult>, totalScraped: nat, totalSaved: nat)
      modifies db
      ensures db.outage == old(db.outage)
      ensures results == KeywordRuns(web, keywords, maxJobs, now, faults, old(db.outage))
      ensures totalScraped == ScrapedTotal(results) && totalSaved == SavedTotal(results)
      ensures db.rows == old(db.rows) + AllRowsAdded(results, old(db.outage), now, createdAt)
    {
      ghost var expected := KeywordRuns(web, keywords, maxJobs, now, faults, db.outage);
      results := [];
      totalScraped := 0;
      totalSaved := 0;
      var i := 0;
      while i < |keywords|
        invariant 0 <= i <= |keywords|
        invariant db.outage == old(db.outage)
        invariant results == expected[..i]
        invariant totalScraped == ScrapedTotal(results) && totalSaved == SavedTotal(results)
        invariant db.rows == old(db.rows) + AllRowsAdded(results, old(db.outage), now, createdAt)
      {
        results, totalScraped, totalSaved := ScrapeNext(web, keywords[i], now, createdAt, faults, maxJobs,
                                                        results, totalScraped, totalSaved, old(db.rows));
        PrefixStep(expected, i);
        i := i + 1;
      }
      assert expected[..i] == expected;
    }

    /** `scrape_all_popular_keywords`: the batch over the popular keywords. */
    method ScrapeAllPopularKeywords(web: Web, now: string, createdAt: int, faults: map<string, string>, maxJobs: int := 5)
      returns (summary: Summary)
      modifies db
      ensures db.outage == old(db.outage)
      ensures summary.success && summary.totalKeywords == |PopularKeywords| == 15
      ensures summary.results == KeywordRuns(web, PopularKeywords, maxJobs, now, faults, old(db.outage))
      ensures summary.totalJobsScraped == ScrapedTotal(summary.results)
      ensures summary.totalJobsSaved == SavedTotal(summary.results)
      ensures db.rows == old(db.rows) + AllRowsAdded(summary.results, old(db.outage), now, createdAt)
    {
      var results, totalScraped, totalSaved := ScrapeEach(web, PopularKeywords, now, createdAt, faults, maxJobs);
      summary := Summary(true, |PopularKeywords|, totalScraped, totalSaved, results);
    }
  }

  /** A batch while the database is reachable saves every record it scraped,
      one row each. */
  lemma BatchSavesAll(web: Web, keywords: seq<string>, now: string, createdAt: int, maxJobs: int, faults: map<string, string>)
    ensures var results := KeywordRuns(web, keywords, maxJobs, now, faults, None);
            SavedTotal(results) == ScrapedTotal(results) == |AllRowsAdded(results, None, now, createdAt)|
  {
    var results := KeywordRuns(web, keywords, maxJobs, now, faults, None);
    forall i | 0 <= i < |results| ensures Consistent(results[i], None) {
      KeywordRunConsistent(web, keywords[i], maxJobs, now, FaultOf(faults, keywords[i]), None);
    }
    TotalsAgree(results, None, now, createdAt);
  }
}

=== FILE: candidate_info.dfy ===
/** The normaliser of the candidate record extracted from a resume: the reply of
    the language model is cut down to its outermost `{ … }` span, decoded, and
    each field read with its default (`experience` through Python's `int`,
    `skills` cut to ten); any failure gives the all-defaults record with the
    reason. The model call and the JSON decoder are parameters. */
module CandidateInfo {
  import opened Common

  const NotFound: string := "Not Found"
  const MaxSkills: int := 10
  const NoJsonMessage: string := "Could not parse JSON from AI response"

  // ------------------------------------------------------------- JSON span

  /** `re.search(r'\{[\s\S]*\}', text)`: from the first '{' to the last '}',
      when some '}' follows the first '{'. */
  function JsonSpan(text: string): (span: Option<string>)
    ensures span.Some? <==> exists i, j :: 0 <= i < j < |text| && text[i] == '{' && text[j] == '}'
    ensures span.Some? ==> |span.value| >= 2 && span.value[0] == '{' && span.value[|span.value| - 1] == '}'
    ensures span.Some? ==> exists i :: OccursAt(text, span.value, i) && '{' !in text[..i] && '}' !in text[i + |span.value|..]
  {
    match (FirstIndexOf(text, '{'), LastIndexOf(text, '}'))
    case (Some(i), Some(j)) =>
      if i < j then
        assert OccursAt(text, text[i..j + 1], i);
        Some(text[i..j + 1])
      else
        None
    case _ =>
      assert forall a :: 0 <= a < |text| ==> text[a] in text;
      None
  }

  /** Text around the span that holds no brace does not change it. */
  lemma JsonSpanOfWrapped(before: string, obj: string, after: string)
    requires |obj| >= 2 && obj[0] == '{' && obj[|obj| - 1] == '}'
    requires '{' !in before && '}' !in before && '{' !in after && '}' !in after
    ensures JsonSpan(before + obj + after) == Some(obj)
  {
    var text := before + obj + after;
    assert text[|before|] == '{' && text[|before| + |obj| - 1] == '}';
    assert text[|before|..|before| + |obj|] == obj;
  }

  // ------------------------------------------------------ Python conversions

  predicate AllDigits(s: string) {
    forall k :: 0 <= k < |s| ==> '0' <= s[k] <= '9'
  }

  /** `int(s)` on text: optional surrounding whitespace, an optional sign and
      at least one ASCII digit; anything else raises. */
  function ParseInt(s: string): (n: Option<int>)
    ensures n.Some? ==> Strip(s) != []
    ensures n.Some? <==> var t := Strip(s);
                         (t != [] && AllDigits(t)) || (|t| >= 2 && (t[0] == '+' || t[0] == '-') && AllDigits(t[1..]))
    ensures Strip(s) != [] && AllDigits(Strip(s)) ==> n == Some(DigitsValue(Strip(s)))
  {
    var t := Strip(s);
    if t != [] && (t[0] == '+' || t[0] == '-') then
      var d := t[1..];
      if d != [] && AllDigits(d) then Some(if t[0] == '-' then -(DigitsValue(d) as int) else DigitsValue(d)) else None
    else if t != [] && AllDigits(t) then Some(DigitsValue(t))
    else None
  }

  /** Python's `int(x)` on a decoded JSON value: ints as they are, booleans as
      0 or 1, floats truncated toward zero, text parsed; anything else raises. */
  function PyInt(j: Json): (n: Option<int>)
    ensures j.JInt? ==> n == Some(j.i)
    ensures j.JNull? || j.JArr? || j.JObj? ==> n.None?
  {
    match j
    case JInt(i) => Some(i)
    case JBool(b) => Some(if b then 1 else 0)
    case JFloat(f) => Some(Truncate(f))
    case JStr(s) => ParseInt(s)
    case _ => None
  }

  /** Rounding toward zero, as Python's `int` does to a float. */
  function Truncate(f: real): (n: int)
    ensures f >= 0.0 ==> 0 <= n && n as real <= f < n as real + 1.0
    ensures f < 0.0 ==> n <= 0 && n as real - 1.0 < f <= n as real
  {
    if f >= 0.0 then f.Floor else -((-f).Floor)
  }

  /** The decimal text of a number reads back as that number. */
  lemma ParseIntOfDecimal(n: nat)
    ensures ParseInt(NatToString(n)) == Some(n)
  {
    var s := NatToString(n);
    StripUnpadded(s);
    DigitsValueOfNatToString(n);
  }

  /** `x[:10]` on the `skills` value: lists and text are cut, anything else raises. */
  function FirstSkills(j: Json): (r: Option<Json>)
    ensures j.JArr? ==> r == Some(JArr(Take(j.items, MaxSkills)))
    ensures j.JArr? || j.JStr? <==> r.Some?
  {
    match j
    case JArr(xs) => Some(JArr(Take(xs, MaxSkills)))
    case JStr(s) => Some(JStr(Take(s, MaxSkills)))
    case _ => None
  }

  // -------------------------------------------------------------- the record

  /** Why the all-defaults record was returned. */
  datatype Failure =
    | ModelFailed(message: string)   // the model call or reading its text raised
    | NoJson                         // no `{ … }` span: "Could not parse JSON from AI response"
    | DecodeFailed(message: string)  // `json.loads` raised
    | NotAnObject                    // the decoded value has no `.get`
    | BadExperience                  // `int(...)` raised
    | BadSkills                      // the slice raised

  datatype CandidateInfo = CandidateInfo(
    name: Json, email: Json, mobile: Json, experience: int, domain: Json, skills: Json,
    error: Option<Failure>)

  /** The record returned from the exception handler. */
  function ErrorRecord(f: Failure): (r: CandidateInfo)
    ensures r.error == Some(f) && r.experience == 0 && r.skills == JArr([])
    ensures r.name == r.email == r.mobile == r.domain == JStr(NotFound)
  {
    CandidateInfo(JStr(NotFound), JStr(NotFound), JStr(NotFound), 0, JStr(NotFound), JArr([]), Some(f))
  }

  /** The dictionary built from a decoded object. */
  function Normalise(m: map<string, Json>): (r: CandidateInfo)
    ensures r.error.None? ==>
              && r.name == Get(m, "name", JStr(NotFound))
              && r.email == Get(m, "email", JStr(NotFound))
              && r.mobile == Get(m, "mobile", JStr(NotFound))
              && r.domain == Get(m, "domain", JStr(NotFound))
              && PyInt(Get(m, "experience", JInt(0))) == Some(r.experience)
              && FirstSkills(Get(m, "skills", JArr([]))) == Some(r.skills)
    ensures r.error.Some? ==> r == ErrorRecord(r.error.value)
    ensures r.error.Some? <==> PyInt(Get(m, "experience", JInt(0))).None? || FirstSkills(Get(m, "skills", JArr([]))).None?
  {
    match PyInt(Get(m, "experience", JInt(0)))
    case None => ErrorRecord(BadExperience)
    case Some(years) =>
      match FirstSkills(Get(m, "skills", JArr([])))
      case None => ErrorRecord(BadSkills)
      case Some(skills) =>
        CandidateInfo(Get(m, "name", JStr(NotFound)), Get(m, "email", JStr(NotFound)), Get(m, "mobile", JStr(NotFound)),
                      years, Get(m, "domain", JStr(NotFound)), skills, None)
  }

  /** `extract_candidate_info` once the model has replied (`reply`) and with
      `loads` as the JSON decoder. */
  function ExtractCandidateInfo(reply: Result<string>, loads: string -> Result<Json>): (r: CandidateInfo)
    ensures reply.Err? ==> r == ErrorRecord(ModelFailed(reply.error))
    ensures reply.Ok? && JsonSpan(Strip(reply.value)).None? ==> r == ErrorRecord(NoJson)
    ensures r.error.Some? ==> r == ErrorRecord(r.error.value)
    ensures r.error.None? ==> reply.Ok? && JsonSpan(Strip(reply.value)).Some?
    ensures r.error.None? ==> var decoded := loads(JsonSpan(Strip(reply.value)).value);
                              decoded.Ok? && decoded.value.JObj? && r == Normalise(decoded.value.fields)
    ensures reply.Ok? && JsonSpan(Strip(reply.value)).Some? ==>
              var decoded := loads(JsonSpan(Strip(reply.value)).value);
              && (decoded.Err? ==> r == ErrorRecord(DecodeFailed(decoded.error)))
              && (decoded.Ok? && decoded.value.JObj? ==> r == Normalise(decoded.value.fields))
              && (decoded.Ok? && !decoded.value.JObj? ==> r == ErrorRecord(NotAnObject))
  {
    match reply
    case Err(e) => ErrorRecord(ModelFailed(e))
    case Ok(text) =>
      match JsonSpan(Strip(text))
      case None => ErrorRecord(NoJson)
      case Some(span) =>
        match loads(span)
        case Err(e) => ErrorRecord(DecodeFailed(e))
        case Ok(decoded) =>
          if decoded.JObj? then Normalise(decoded.fields) else ErrorRecord(NotAnObject)
  }

  /** The skills kept are the first ones the model listed, at most ten. */
  lemma SkillsArePrefix(reply: Result<string>, loads: string -> Result<Json>)
    requires ExtractCandidateInfo(reply, loads).error.None?
    requires var m := loads(JsonSpan(Strip(reply.value)).value).value.fields;
             Get(m, "skills", JArr([])).JArr?
    ensures var r := ExtractCandidateInfo(reply, loads);
            var given := loads(JsonSpan(Strip(reply.value)).value).value.fields;
            && r.skills.JArr?
            && |r.skills.items| <= MaxSkills
            && r.skills.items == Get(given, "skills", JArr([])).items[..|r.skills.items|]
  {
  }

  /** A well-formed answer is taken over field by field: a whole number of years
      written as text is read as that number, and a missing field takes its default. */
  lemma WellFormedAnswer(m: map<string, Json>, years: nat, skills: seq<Json>)
    requires "experience" in m && m["experience"] == JStr(NatToString(years))
    requires "skills" in m && m["skills"] == JArr(skills)
    ensures var r := Normalise(m);
            && r.error.None? && r.experience == years && r.skills == JArr(Take(skills, MaxSkills))
            && ("name" !in m ==> r.name == JStr(NotFound))
  {
    ParseIntOfDecimal(years);
  }
}

=== FILE: common.dfy ===
/** Values shared by the back end model: optional values, decoded JSON,
    the ASCII string operations the Python and TypeScript code relies on,
    and the sum of the values of a count map. */
module Common {

  datatype Option<T> = None | Some(value: T) {
    /** Python's `d.get(key, default)` once the lookup is done. */
    function GetOr(default: T): T {
      if Some? then value else default
    }
  }

  datatype Result<T> = Ok(value: T) | Err(error: string)

  /** A decoded JSON value as Python's `json` module produces it. */
  datatype Json =
    | JNull
    | JBool(b: bool)
    | JInt(i: int)
    | JFloat(f: real)
    | JStr(s: string)
    | JArr(items: seq<Json>)
    | JObj(fields: map<string, Json>)

  /** Python truthiness of a decoded JSON value (`if x:`). */
  predicate Truthy(j: Json) {
    match j
    case JNull => false
    case JBool(b) => b
    case JInt(i) => i != 0
    case JFloat(f) => f != 0.0
    case JStr(s) => s != ""
    case JArr(xs) => xs != []
    case JObj(m) => m != map[]
  }

  /** Python truthiness of an optional string: None and "" are false. */
  predicate Present(o: Option<string>) {
    o.Some? && o.value != ""
  }

  /** Python's `d.get(key, default)` on a JSON object. */
  function Get(m: map<string, Json>, key: string, default: Json): Json {
    if key in m then m[key] else default
  }

  // ---------------------------------------------------------------- strings

  function LowerChar(c: char): char {
    if 'A' <= c <= 'Z' then (c as int + 32) as char else c
  }

  /** `str.lower()` / `toLowerCase()` restricted to ASCII letters. */
  function Lower(s: string): (r: string)
    ensures |r| == |s|
    ensures forall i :: 0 <= i < |s| ==> r[i] == LowerChar(s[i])
  {
    if s == [] then [] else [LowerChar(s[0])] + Lower(s[1..])
  }

  predicate StartsWith(s: string, prefix: string) {
    prefix <= s
  }

  predicate EndsWith(s: string, suffix: string) {
    |suffix| <= |s| && s[|s| - |suffix|..] == suffix
  }

  /** `needle` occurs in `hay` starting at index `i`. */
  ghost predicate OccursAt(hay: string, needle: string, i: int) {
    0 <= i && i + |needle| <= |hay| && hay[i..i + |needle|] == needle
  }

  /** Python's `needle in hay` and JavaScript's `hay.includes(needle)`. */
  function Contains(hay: string, needle: string): (r: bool)
    ensures r <==> exists i :: OccursAt(hay, needle, i)
    decreases |hay|
  {
    if |needle| > |hay| then false
    else if needle <= hay then
      assert OccursAt(hay, needle, 0);
      true
    else
      var rest := Contains(hay[1..], needle);
      ContainsStep(hay, needle);
      rest
  }

  /** An occurrence that is not at index 0 is an occurrence in the tail. */
  lemma ContainsStep(hay: string, needle: string)
    requires hay != [] && !(needle <= hay)
    ensures (exists i :: OccursAt(hay, needle, i)) <==> (exists i :: OccursAt(hay[1..], needle, i))
  {
    if i :| OccursAt(hay, needle, i) {
      if i != 0 {
        assert hay[1..][i - 1..i - 1 + |needle|] == hay[i..i + |needle|];
        assert OccursAt(hay[1..], needle, i - 1);
      }
    }
    if i :| OccursAt(hay[1..], needle, i) {
      assert hay[1..][i..i + |needle|] == hay[i + 1..i + 1 + |needle|];
      assert OccursAt(hay, needle, i + 1);
    }
  }

  /** Case-insensitive containment: `needle.lower() in hay.lower()`. */
  predicate ContainsIgnoreCase(hay: string, needle: string) {
    Contains(Lower(hay), Lower(needle))
  }

  /** Whitespace removed by `str.strip()`: the characters for which Python's
      `str.isspace()` holds, the four ASCII separators 0x1C-0x1F included. */
  predicate IsSpace(c: char) {
    || c == ' ' || c == '\t' || c == '\n' || c == '\r' || c == '\U{000B}' || c == '\U{000C}'
    || ('\U{001C}' <= c <= '\U{001F}')
    || c == '\U{0085}' || c == '\U{00A0}' || c == '\U{1680}'
    || ('\U{2000}' <= c <= '\U{200A}')
    || c == '\U{2028}' || c == '\U{2029}' || c == '\U{202F}' || c == '\U{205F}' || c == '\U{3000}'
  }

  function TrimStart(s: string): (r: string)
    ensures |r| <= |s| && r == s[|s| - |r|..]
    ensures r == [] || !IsSpace(r[0])
    ensures forall i :: 0 <= i < |s| - |r| ==> IsSpace(s[i])
  {
    if s != [] && IsSpace(s[0]) then TrimStart(s[1..]) else s
  }

  function TrimEnd(s: string): (r: string)
    ensures |r| <= |s| && r == s[..|r|]
    ensures r == [] || !IsSpace(r[|r| - 1])
    ensures forall i :: |r| <= i < |s| ==> IsSpace(s[i])
  {
    if s != [] && IsSpace(s[|s| - 1]) then TrimEnd(s[..|s| - 1]) else s
  }

  /** Python's `str.strip()`: the text between the leading and trailing whitespace. */
  function Strip(s: string): (r: string)
    ensures r == [] || (!IsSpace(r[0]) && !IsSpace(r[|r| - 1]))
    ensures |r| <= |s|
  {
    TrimEnd(TrimStart(s))
  }

  /** Text that neither starts nor ends with whitespace is left as it is. */
  lemma StripUnpadded(s: string)
    requires s == [] || (!IsSpace(s[0]) && !IsSpace(s[|s| - 1]))
    ensures Strip(s) == s
  {
  }

  /** Index of the first occurrence of `c`. */
  function FirstIndexOf(s: string, c: char): (r: Option<nat>)
    ensures r.None? <==> c !in s
    ensures r.Some? ==> r.value < |s| && s[r.value] == c && c !in s[..r.value]
  {
    if s == [] then None
    else if s[0] == c then Some(0)
    else
      match FirstIndexOf(s[1..], c)
      case None => None
      case Some(i) =>
        assert s[..i + 1] == [s[0]] + s[1..][..i];
        Some(i + 1)
  }

  /** An occurrence with none before it is the first occurrence. */
  lemma FirstIndexOfIs(s: string, c: char, n: nat)
    requires n < |s| && s[n] == c && c !in s[..n]
    ensures FirstIndexOf(s, c) == Some(n)
  {
  }

  /** Index of the last occurrence of `c`. */
  function LastIndexOf(s: string, c: char): (r: Option<nat>)
    ensures r.None? <==> c !in s
    ensures r.Some? ==> r.value < |s| && s[r.value] == c && c !in s[r.value + 1..]
  {
    if s == [] then None
    else if s[|s| - 1] == c then Some(|s| - 1)
    else
      match LastIndexOf(s[..|s| - 1], c)
      case None =>
        assert s == s[..|s| - 1] + [s[|s| - 1]];
        None
      case Some(i) =>
        assert s[i + 1..] == s[..|s| - 1][i + 1..] + [s[|s| - 1]];
        Some(i)
  }

  /** Python's `f"{n}"` for a natural number. */
  function NatToString(n: nat): (r: string)
    ensures r != []
    ensures forall i :: 0 <= i < |r| ==> '0' <= r[i] <= '9'
  {
    if n < 10 then [DigitChar(n)] else NatToString(n / 10) + [DigitChar(n % 10)]
  }

  function DigitChar(d: nat): (c: char)
    requires d < 10
    ensures '0' <= c <= '9' && c as int - '0' as int == d
  {
    ('0' as int + d) as char
  }

  /** The value of a non-empty run of ASCII digits. */
  function DigitsValue(s: string): nat
    requires forall i :: 0 <= i < |s| ==> '0' <= s[i] <= '9'
  {
    if s == [] then 0 else DigitsValue(s[..|s| - 1]) * 10 + (s[|s| - 1] as int - '0' as int)
  }

  /** Reading back the decimal text of a number gives the number. */
  lemma {:induction false} DigitsValueOfNatToString(n: nat)
    ensures DigitsValue(NatToString(n)) == n
  {
    if n >= 10 {
      var r := NatToString(n);
      assert r[..|r| - 1] == NatToString(n / 10);
      DigitsValueOfNatToString(n / 10);
    } else {
      assert NatToString(n)[..0] == [];
    }
  }

  /** `a` is obtained from `b` by deleting elements: an order-preserving selection. */
  ghost predicate IsSubsequence<T>(a: seq<T>, b: seq<T>)
    decreases |b|
  {
    a == [] || (b != [] && ((a[0] == b[0] && IsSubsequence(a[1..], b[1..])) || IsSubsequence(a, b[1..])))
  }

  /** Python's `xs[:n]` for a non-negative bound, and `[]` for a bound of 0 or less
      (the latter is how a query `LIMIT` of 0 behaves). */
  function Take<T>(xs: seq<T>, n: int): (r: seq<T>)
    ensures |r| == if n <= 0 then 0 else if n < |xs| then n else |xs|
    ensures r == xs[..|r|]
  {
    if n <= 0 then [] else if n < |xs| then xs[..n] else xs
  }

  /** The prefix of length `i + 1` is the prefix of length `i` and one more element. */
  lemma PrefixStep<T>(s: seq<T>, i: nat)
    requires i < |s|
    ensures s[..i + 1] == s[..i] + [s[i]]
  {
  }

  // ------------------------------------------------------- summing a count map

  /** The sum of the values of a map. */
  ghost function MapSum<K>(m: map<K, nat>): nat
    decreases |m|
  {
    if m == map[] then 0
    else
      assert exists k :: k in m by {
        var k :| k in m.Keys;
      }
      var k :| k in m;
      m[k] + MapSum(m - {k})
  }

  /** The sum does not depend on which key is taken out first. */
  lemma {:induction false} MapSumRemove<K>(m: map<K, nat>, k: K)
    requires k in m
    ensures MapSum(m) == m[k] + MapSum(m - {k})
    decreases |m|
  {
    var j :| j in m && MapSum(m) == m[j] + MapSum(m - {j});
    if j != k {
      MapSumRemove(m - {j}, k);
      MapSumRemove(m - {k}, j);
      assert m - {j} - {k} == m - {k} - {j};
    }
  }

  /** Setting one entry changes the sum by the difference of old and new value. */
  lemma MapSumUpdate<K>(m: map<K, nat>, k: K, v: nat)
    ensures MapSum(m[k := v]) == MapSum(m) - (if k in m then m[k] else 0) + v
  {
    MapSumRemove(m[k := v], k);
    assert m[k := v] - {k} == m - {k};
    if k in m {
      MapSumRemove(m, k);
    } else {
      assert m - {k} == m;
    }
  }
}

=== FILE: job_records.dfy ===
/** The job record the scrapers build and the aggregator passes on, the outcome
    of one scraper call, and what a browser page load yields. */
module JobRecords {
  import opened Common

  /** Placeholder the scrapers write for an element they did not find. */
  const NotAvailable: string := "N/A"

  /** A job record: a Python dict whose known keys may each be present or absent. */
  datatype Posting = Posting(
    title: Option<string>,
    company: Option<string>,
    location: Option<string>,
    experience: Option<string>,
    salary: Option<string>,
    description: Option<string>,
    url: Option<string>,
    source: Option<string>,
    keyword: Option<string>,
    scrapedAt: Option<string>)

  /** The seven keys every scraper writes are present; the aggregator's two
      stamps are not yet. */
  predicate HasScraperKeys(p: Posting) {
    && p.title.Some? && p.company.Some? && p.location.Some? && p.experience.Some?
    && p.salary.Some? && p.description.Some? && p.url.Some?
    && p.keyword.None? && p.scrapedAt.None?
  }

  /** One scraper call: the records it returned, or the exception it raised. */
  datatype Outcome = Scraped(jobs: seq<Posting>) | Raised(error: string)

  /** One page load through the browser: the cards found on it, or the exception
      raised while starting the browser, loading the page or parsing it. */
  datatype Page<C> = Loaded(cards: seq<C>) | Failed(error: string)

  /** The page served for `url`; a URL the map does not know cannot be loaded. */
  function Load<C>(pages: map<string, Page<C>>, url: string): (p: Page<C>)
    ensures url !in pages ==> p.Failed?
    ensures url in pages ==> p == pages[url]
  {
    if url in pages then pages[url] else Failed("cannot load " + url)
  }

  /** The stripped text of an element, or "N/A" when the element is missing. */
  function TextOr(elem: Option<string>, default: string): (r: string)
    ensures elem.None? ==> r == default
    ensures elem.Some? ==> r == Strip(elem.value)
  {
    if elem.Some? then Strip(elem.value) else default
  }

  /** The records built from the cards that yield one, in card order; `build`
      gives None for a card that is skipped or whose parsing raises. */
  function Collect<C>(cards: seq<C>, build: C -> Option<Posting>): seq<Posting> {
    if cards == [] then []
    else (if build(cards[0]).Some? then [build(cards[0]).value] else []) + Collect(cards[1..], build)
  }

  lemma {:induction false} CollectAppend<C>(a: seq<C>, b: seq<C>, build: C -> Option<Posting>)
    ensures Collect(a + b, build) == Collect(a, build) + Collect(b, build)
  {
    if a == [] {
      assert a + b == b;
    } else {
      var head := if build(a[0]).Some? then [build(a[0]).value] else [];
      calc {
        Collect(a + b, build);
        head + Collect((a + b)[1..], build);
        { assert (a + b)[1..] == a[1..] + b; CollectAppend(a[1..], b, build); }
        head + (Collect(a[1..], build) + Collect(b, build));
        Collect(a, build) + Collect(b, build);
      }
    }
  }

  /** No more records than cards, and each record is what `build` made of one of the cards. */
  lemma {:induction false} CollectFromCards<C>(cards: seq<C>, build: C -> Option<Posting>)
    ensures |Collect(cards, build)| <= |cards|
    ensures forall p :: p in Collect(cards, build) ==> exists c :: c in cards && build(c) == Some(p)
  {
    if cards != [] {
      CollectFromCards(cards[1..], build);
      forall p | p in Collect(cards, build)
        ensures exists c :: c in cards && build(c) == Some(p)
      {
        if p !in Collect(cards[1..], build) {
          assert build(cards[0]) == Some(p);
        } else {
          var c :| c in cards[1..] && build(c) == Some(p);
          assert c in cards;
        }
      }
    }
  }

  /** A card that yields nothing leaves the records of the cards around it as they were. */
  lemma SkippedCardDropped<C>(before: seq<C>, card: C, after: seq<C>, build: C -> Option<Posting>)
    requires build(card).None?
    ensures Collect(before + [card] + after, build) == Collect(before, build) + Collect(after, build)
  {
    CollectAppend(before + [card], after, build);
    CollectAppend(before, [card], build);
    assert Collect([card], build) == [] by {
      assert [card][1..] == [];
    }
  }

  /** The scrapers' card loop: `for idx, card in enumerate(cards)`, stopping once
      `idx >= max_jobs`, appending what each card yields. The cap counts cards,
      so a skipped card still uses up one of the `max_jobs` places. */
  method CollectRecords<C>(cards: seq<C>, maxJobs: int, build: C -> Option<Posting>) returns (jobs: seq<Posting>)
    ensures jobs == Collect(Take(cards, maxJobs), build)
  {
    jobs := [];
    var idx := 0;
    while idx < |cards|
      invariant 0 <= idx <= |cards|
      invariant idx == 0 || idx <= maxJobs
      invariant jobs == Collect(cards[..idx], build)
    {
      if idx >= maxJobs {
        break;
      }
      CollectAppend(cards[..idx], [cards[idx]], build);
      assert cards[..idx + 1] == cards[..idx] + [cards[idx]];
      assert [cards[idx]][1..] == [];
      var built := build(cards[idx]);
      if built.Some? {
        jobs := jobs + [built.value];
      }
      idx := idx + 1;
    }
    assert cards[..idx] == Take(cards, maxJobs);
  }
}

=== FILE: job_store.dfy ===
/** The `jobs` table and its operations: batch insert with default-filled
    columns, the filter–order–limit queries, per-source statistics and the
    soft delete of old rows. The table is held in memory as a sequence of rows
    in insertion order; a database outage makes every operation take its error path. */
module JobStore {
  import opened Common
  import opened JobRecords
  import opened Sorting
  import Naukri

  /** One row of the `jobs` table. `createdAt` is the insertion time in seconds
      on the database clock; `domain` is a column the insert never fills. */
  datatype Row = Row(
    title: string,
    company: string,
    description: string,
    location: string,
    experience: string,
    salary: string,
    url: string,
    source: string,
    keyword: string,
    scrapedAt: string,
    isActive: bool,
    domain: Option<string>,
    createdAt: int)

  /** The row stored for a job record: present keys are kept, absent ones take
      their column's default; `now` is the clock reading used for a missing
      `scraped_at`. */
  function ToRow(p: Posting, now: string, createdAt: int): (r: Row)
    ensures r.isActive && r.domain.None? && r.createdAt == createdAt
    ensures r.title == p.title.GetOr(NotAvailable) && r.company == p.company.GetOr(NotAvailable)
    ensures r.location == p.location.GetOr(NotAvailable) && r.experience == p.experience.GetOr(NotAvailable)
    ensures r.salary == p.salary.GetOr(NotAvailable)
    ensures r.description == p.description.GetOr("") && r.url == p.url.GetOr("") && r.keyword == p.keyword.GetOr("")
    ensures r.source == p.source.GetOr("Unknown")
    ensures r.scrapedAt == p.scrapedAt.GetOr(now)
  {
    Row(
      title := p.title.GetOr(NotAvailable),
      company := p.company.GetOr(NotAvailable),
      description := p.description.GetOr(""),
      location := p.location.GetOr(NotAvailable),
      experience := p.experience.GetOr(NotAvailable),
      salary := p.salary.GetOr(NotAvailable),
      url := p.url.GetOr(""),
      source := p.source.GetOr("Unknown"),
      keyword := p.keyword.GetOr(""),
      scrapedAt := p.scrapedAt.GetOr(now),
      isActive := true,
      domain := None,
      createdAt := createdAt)
  }

  /** The rows one insert adds: one per job, in order. */
  function RowsOf(jobs: seq<Posting>, now: string, createdAt: int): (rs: seq<Row>)
    ensures |rs| == |jobs|
    ensures forall i :: 0 <= i < |jobs| ==> rs[i] == ToRow(jobs[i], now, createdAt)
  {
    seq(|jobs|, i requires 0 <= i < |jobs| => ToRow(jobs[i], now, createdAt))
  }

  /** A Naukri record has no `source` key, so its row is filed under "Unknown". */
  lemma NaukriRowIsUnknown(c: Naukri.Card, now: string, createdAt: int)
    requires c.Card?
    ensures ToRow(Naukri.Record(c), now, createdAt).source == "Unknown"
  {
  }

  /** What `insert_jobs` reports. */
  datatype InsertResult = InsertResult(success: bool, insertedCount: Option<nat>, message: string)

  /** The report of an insert of `jobs` while the database is in state `outage`. */
  function InsertReport(jobs: seq<Posting>, outage: Option<string>): InsertResult {
    if jobs == [] then InsertResult(false, None, "No jobs to insert")
    else if outage.Some? then InsertResult(false, None, "Error inserting jobs: " + outage.value)
    else InsertResult(true, Some(|jobs|), "Successfully inserted " + NatToString(|jobs|) + " jobs")
  }

  /** The rows that insert adds to the table. */
  function InsertedRows(jobs: seq<Posting>, outage: Option<string>, now: string, createdAt: int): seq<Row> {
    if jobs != [] && outage.None? then RowsOf(jobs, now, createdAt) else []
  }

  /** An insert succeeds exactly when there is something to insert and the
      database is reachable; then it reports as many rows as it added, one per
      job, and otherwise it adds none and reports no count. */
  lemma InsertReportProperties(jobs: seq<Posting>, outage: Option<string>, now: string, createdAt: int)
    ensures InsertReport(jobs, outage).success <==> jobs != [] && outage.None?
    ensures InsertReport(jobs, outage).success ==>
              InsertReport(jobs, outage).insertedCount == Some(|InsertedRows(jobs, outage, now, createdAt)|)
              && |InsertedRows(jobs, outage, now, createdAt)| == |jobs|
    ensures !InsertReport(jobs, outage).success ==>
              InsertReport(jobs, outage).insertedCount.None? && InsertedRows(jobs, outage, now, createdAt) == []
    ensures jobs == [] ==> InsertReport(jobs, outage).message == "No jobs to insert"
  {
  }

  /** The count in the success message reads back as the number of rows inserted. */
  lemma InsertMessageCount(jobs: seq<Posting>)
    requires jobs != []
    ensures var m := InsertReport(jobs, None).message;
            var digits := m[|"Successfully inserted "|..|m| - |" jobs"|];
            digits == NatToString(|jobs|) && DigitsValue(digits) == |jobs|
  {
    var m := InsertReport(jobs, None).message;
    assert m[|"Successfully inserted "|..|m| - |" jobs"|] == NatToString(|jobs|);
    DigitsValueOfNatToString(|jobs|);
  }

  /** The filters of a query; None leaves a column unfiltered. */
  datatype Criteria = Criteria(keyword: Option<string>, location: Option<string>, domain: Option<string>, source: Option<string>)

  /** An active row that passes every filter: the keyword as a case-insensitive
      substring of the title or the description, the location as a
      case-insensitive substring, domain and source by equality. */
  predicate Matches(r: Row, c: Criteria) {
    && r.isActive
    && (c.keyword.Some? ==> ContainsIgnoreCase(r.title, c.keyword.value) || ContainsIgnoreCase(r.description, c.keyword.value))
    && (c.location.Some? ==> ContainsIgnoreCase(r.location, c.location.value))
    && (c.domain.Some? ==> r.domain == c.domain)
    && (c.source.Some? ==> r.source == c.source.value)
  }

  /** The matching rows, in table order. */
  function Filter(rows: seq<Row>, c: Criteria): (rs: seq<Row>)
    ensures forall r :: r in rs ==> r in rows && Matches(r, c)
    ensures forall r :: r in rows && Matches(r, c) ==> r in rs
    ensures IsSubsequence(rs, rows)
  {
    if rows == [] then []
    else
      var rest := Filter(rows[1..], c);
      FilterSubsequence(rows, rest, Matches(rows[0], c));
      if Matches(rows[0], c) then [rows[0]] + rest else rest
  }

  lemma FilterSubsequence(rows: seq<Row>, rest: seq<Row>, keep: bool)
    requires rows != [] && IsSubsequence(rest, rows[1..])
    ensures IsSubsequence(if keep then [rows[0]] + rest else rest, rows)
  {
    if keep {
      assert ([rows[0]] + rest)[1..] == rest;
    } else if rest != [] {
      assert IsSubsequence(rest, rows[1..]);
    }
  }

  function CreatedAt(r: Row): real {
    r.createdAt as real
  }

  /** `ORDER BY created_at DESC LIMIT limit` over the matching rows. Rows with
      the same `created_at` keep their table order. */
  function Query(rows: seq<Row>, c: Criteria, limit: int): seq<Row> {
    Take(SortDesc(Filter(rows, c), CreatedAt), limit)
  }

  /** A query returns only matching rows, newest first, at most `limit` of them;
      every matching row it leaves out is no newer than any row it returns; and
      when no more than `limit` rows match, it returns all of them. */
  lemma QueryProperties(rows: seq<Row>, c: Criteria, limit: int)
    ensures forall r :: r in Query(rows, c, limit) ==> r in rows && Matches(r, c)
    ensures SortedDesc(Query(rows, c, limit), CreatedAt)
    ensures |Query(rows, c, limit)| <= (if limit < 0 then 0 else limit)
    ensures forall r, q :: r in rows && Matches(r, c) && r !in Query(rows, c, limit) && q in Query(rows, c, limit) ==>
              q.createdAt >= r.createdAt
    ensures 0 <= |Filter(rows, c)| <= limit ==> multiset(Query(rows, c, limit)) == multiset(Filter(rows, c))
  {
    var matching := Filter(rows, c);
    var sorted := SortDesc(matching, CreatedAt);
    var top := Query(rows, c, limit);
    forall r | r in top ensures r in rows && Matches(r, c) {
      assert r in multiset(sorted);
    }
    forall r, q | r in rows && Matches(r, c) && r !in top && q in top
      ensures q.createdAt >= r.createdAt
    {
      TakeSortedIsTop(matching, CreatedAt, limit, r);
    }
    if 0 <= |matching| <= limit {
      assert top == sorted;
    }
  }

  /** Rows with equal `created_at` come out of a query in table order. */
  lemma QueryTiesInTableOrder(rows: seq<Row>, c: Criteria, t: int)
    ensures WithKey(SortDesc(Filter(rows, c), CreatedAt), CreatedAt, t as real) == WithKey(Filter(rows, c), CreatedAt, t as real)
  {
    SortDescStable(Filter(rows, c), CreatedAt, t as real);
  }

  /** A falsy filter argument (None or "") is not applied. */
  function Given(o: Option<string>): (r: Option<string>)
    ensures r.Some? <==> Present(o)
    ensures r.Some? ==> r == o
  {
    if Present(o) then o else None
  }

  /** The rows whose source is `s`. */
  function CountSource(rows: seq<Row>, s: string): nat {
    if rows == [] then 0 else CountSource(rows[..|rows| - 1], s) + (if rows[|rows| - 1].source == s then 1 else 0)
  }

  /** The `jobs_by_source` counts over some rows. */
  function SourceCounts(rows: seq<Row>): map<string, nat> {
    if rows == [] then map[]
    else
      var init := SourceCounts(rows[..|rows| - 1]);
      var s := rows[|rows| - 1].source;
      init[s := (if s in init then init[s] else 0) + 1]
  }

  /** Each source present among the rows has an entry holding its number of
      rows; no other name has one; and the entries add up to the number of rows. */
  lemma {:induction false} SourceCountsProperties(rows: seq<Row>)
    ensures forall s :: s in SourceCounts(rows) <==> CountSource(rows, s) > 0
    ensures forall s :: s in SourceCounts(rows) ==> SourceCounts(rows)[s] == CountSource(rows, s)
    ensures MapSum(SourceCounts(rows)) == |rows|
  {
    if rows != [] {
      var init := rows[..|rows| - 1];
      var s := rows[|rows| - 1].source;
      SourceCountsProperties(init);
      MapSumUpdate(SourceCounts(init), s, (if s in SourceCounts(init) then SourceCounts(init)[s] else 0) + 1);
    }
  }

  /** The active rows, in table order. */
  function Active(rows: seq<Row>): (rs: seq<Row>)
    ensures forall r :: r in rs <==> r in rows && r.isActive
    ensures |rs| <= |rows|
  {
    if rows == [] then []
    else Active(rows[..|rows| - 1]) + (if rows[|rows| - 1].isActive then [rows[|rows| - 1]] else [])
  }

  /** What `get_job_stats` reports. */
  datatype Stats = Stats(totalJobs: nat, jobsBySource: map<string, nat>)

  /** A row older than the cutoff is made inactive; everything else about it stays. */
  function Expire(r: Row, cutoff: int): (e: Row)
    ensures e == r.(isActive := e.isActive)
    ensures e.isActive <==> r.isActive && r.createdAt >= cutoff
  {
    if r.createdAt < cutoff then r.(isActive := false) else r
  }

  function ExpireAll(rows: seq<Row>, cutoff: int): (rs: seq<Row>)
    ensures |rs| == |rows|
    ensures forall i :: 0 <= i < |rows| ==> rs[i] == Expire(rows[i], cutoff)
  {
    seq(|rows|, i requires 0 <= i < |rows| => Expire(rows[i], cutoff))
  }

  /** Marking old rows twice is marking them once, and it never brings a row back. */
  lemma ExpireAllIdempotent(rows: seq<Row>, cutoff: int)
    ensures ExpireAll(ExpireAll(rows, cutoff), cutoff) == ExpireAll(rows, cutoff)
    ensures forall i :: 0 <= i < |rows| && !rows[i].isActive ==> !ExpireAll(rows, cutoff)[i].isActive
  {
  }

  /** Seconds in a day: `timedelta(days=days)` on the clock `createdAt` uses. */
  const SecondsPerDay: int := 86400

  class JobDatabase {
    /** The table, in insertion order. */
    var rows: seq<Row>
    /** Some(message) while the database cannot be reached: every call then fails with it. */
    var outage: Option<string>

    constructor(rows: seq<Row>, outage: Option<string>)
      ensures this.rows == rows && this.outage == outage
    {
      this.rows := rows;
      this.outage := outage;
    }

    /** `insert_jobs`: one default-filled row per job, appended in order. */
    method InsertJobs(jobs: seq<Posting>, now: string, createdAt: int) returns (result: InsertResult)
      modifies this
      ensures outage == old(outage)
      ensures result == InsertReport(jobs, old(outage))
      ensures rows == old(rows) + InsertedRows(jobs, old(outage), now, createdAt)
    {
      if jobs == [] {
        return InsertResult(false, None, "No jobs to insert");
      }
      var batch: seq<Row> := [];
      var i := 0;
      while i < |jobs|
        invariant 0 <= i <= |jobs|
        invariant batch == RowsOf(jobs[..i], now, createdAt)
      {
        batch := batch + [ToRow(jobs[i], now, createdAt)];
        i := i + 1;
      }
      assert jobs[..i] == jobs;
      if outage.Some? {
        assert rows + [] == rows;
        return InsertResult(false, None, "Error inserting jobs: " + outage.value);
      }
      rows := rows + batch;
      result := InsertResult(true, Some(|batch|), "Successfully inserted " + NatToString(|batch|) + " jobs");
    }

    /** `search_jobs`: falsy filter arguments are ignored; a failure gives []. */
    function SearchJobs(keyword: Option<string> := None, location: Option<string> := None,
                        domain: Option<string> := None, source: Option<string> := None, limit: int := 50): (rs: seq<Row>)
      reads this
      ensures outage.Some? ==> rs == []
      ensures forall r :: r in rs ==> r in rows && r.isActive
      ensures forall r :: r in rs && Present(keyword) ==>
                ContainsIgnoreCase(r.title, keyword.value) || ContainsIgnoreCase(r.description, keyword.value)
      ensures forall r :: r in rs && Present(location) ==> ContainsIgnoreCase(r.location, location.value)
      ensures forall r :: r in rs && Present(domain) ==> r.domain == domain
      ensures forall r :: r in rs && Present(source) ==> r.source == source.value
      ensures SortedDesc(rs, CreatedAt)
      ensures |rs| <= (if limit < 0 then 0 else limit)
    {
      var c := Criteria(Given(keyword), Given(location), Given(domain), Given(source));
      QueryProperties(rows, c, limit);
      if outage.Some? then [] else Query(rows, c, limit)
    }

    /** `get_jobs_by_domain`: the domain filter is applied even to "". */
    function GetJobsByDomain(domain: string, limit: int := 50): (rs: seq<Row>)
      reads this
      ensures outage.Some? ==> rs == []
      ensures forall r :: r in rs ==> r in rows && r.isActive && r.domain == Some(domain)
      ensures domain != "" ==> rs == SearchJobs(domain := Some(domain), limit := limit)
    {
      var c := Criteria(None, None, Some(domain), None);
      QueryProperties(rows, c, limit);
      if outage.Some? then [] else Query(rows, c, limit)
    }

    /** `get_recent_jobs`: the newest active rows. */
    function GetRecentJobs(limit: int := 20): (rs: seq<Row>)
      reads this
      ensures rs == SearchJobs(limit := limit)
      ensures outage.None? && 0 <= |Active(rows)| <= limit ==> multiset(rs) == multiset(Active(rows))
    {
      var c := Criteria(None, None, None, None);
      QueryProperties(rows, c, limit);
      FilterAllIsActive(rows);
      if outage.Some? then [] else Query(rows, c, limit)
    }

    /** `get_job_stats`: the active rows counted per source. */
    method GetJobStats() returns (stats: Stats)
      ensures outage.Some? ==> stats == Stats(0, map[])
      ensures outage.None? ==> stats.totalJobs == |Active(rows)|
      ensures outage.None? ==> forall s :: s in stats.jobsBySource <==> CountSource(Active(rows), s) > 0
      ensures outage.None? ==> forall s :: s in stats.jobsBySource ==> stats.jobsBySource[s] == CountSource(Active(rows), s)
      ensures outage.None? ==> MapSum(stats.jobsBySource) == stats.totalJobs
    {
      if outage.Some? {
        return Stats(0, map[]);
      }
      var active := Active(rows);
      var counts: map<string, nat> := map[];
      var i := 0;
      while i < |active|
        invariant 0 <= i <= |active|
        invariant counts == SourceCounts(active[..i])
      {
        assert active[..i + 1][..i] == active[..i];
        var s := active[i].source;
        counts := counts[s := (if s in counts then counts[s] else 0) + 1];
        i := i + 1;
      }
      assert active[..i] == active;
      SourceCountsProperties(active);
      stats := Stats(|active|, counts);
    }

    /** `delete_old_jobs`: rows created before `now - days` become inactive; no
        row is removed and nothing else changes. `now` is in seconds. */
    method DeleteOldJobs(now: int, days: int := 30) returns (success: bool, message: string)
      modifies this
      ensures outage == old(outage)
      ensures old(outage).Some? ==> rows == old(rows) && !success && message == "Error: " + old(outage).value
      ensures old(outage).None? ==>
                rows == ExpireAll(old(rows), now - days * SecondsPerDay) && success && message == "Marked old jobs as inactive"
    {
      if outage.Some? {
        return false, "Error: " + outage.value;
      }
      var cutoff := now - days * SecondsPerDay;
      var i := 0;
      while i < |rows|
        invariant 0 <= i <= |rows| == |old(rows)|
        invariant outage == old(outage)
        invariant forall j :: 0 <= j < i ==> rows[j] == Expire(old(rows)[j], cutoff)
        invariant forall j :: i <= j < |rows| ==> rows[j] == old(rows)[j]
      {
        if rows[i].createdAt < cutoff {
          rows := rows[i := rows[i].(isActive := false)];
        }
        i := i + 1;
      }
      success, message := true, "Marked old jobs as inactive";
    }
  }

  /** With no filter every active row matches, so the unfiltered query ranges over
      exactly the active rows. */
  lemma {:induction false} FilterAllIsActive(rows: seq<Row>)
    ensures Filter(rows, Criteria(None, None, None, None)) == Active(rows)
    decreases |rows|
  {
    if rows != [] {
      var c := Criteria(None, None, None, None);
      var init, last := rows[..|rows| - 1], rows[|rows| - 1];
      assert rows == init + [last];
      FilterAllIsActive(init);
      FilterSnoc(init, last, c);
      assert Matches(last, c) == last.isActive;
    }
  }

  lemma {:induction false} FilterSnoc(rows: seq<Row>, r: Row, c: Criteria)
    ensures Filter(rows + [r], c) == Filter(rows, c) + (if Matches(r, c) then [r] else [])
  {
    if rows == [] {
      assert ([] + [r])[1..] == [];
    } else {
      assert (rows + [r])[1..] == rows[1..] + [r];
      FilterSnoc(rows[1..], r, c);
    }
  }
}

=== FILE: jobs_page.dfy ===
/** The job list page: the search box starts from the `search` URL parameter,
    and the listed jobs are those whose title, company or description contains
    the query, ignoring letter case. */
module JobsPage {
  import opened Common

  /** A job card as the page holds it. */
  datatype Job = Job(
    id: string, title: string, company: string, location: string,
    kind: string, salary: string, postedAt: string, description: string)

  /** `searchParams.get("search") || ""`: a missing parameter gives the empty query. */
  function InitialQuery(search: Option<string>): (q: string)
    ensures search.None? ==> q == ""
    ensures search.Some? ==> q == search.value
  {
    if search.Some? && search.value != "" then search.value else ""
  }

  /** Whether a job is listed for a non-empty query. */
  predicate Listed(job: Job, query: string) {
    || ContainsIgnoreCase(job.title, query)
    || ContainsIgnoreCase(job.company, query)
    || ContainsIgnoreCase(job.description, query)
  }

  function KeepListed(jobs: seq<Job>, query: string): (rs: seq<Job>)
    ensures forall j :: j in rs <==> j in jobs && Listed(j, query)
    ensures |rs| <= |jobs|
  {
    if jobs == [] then []
    else (if Listed(jobs[0], query) then [jobs[0]] else []) + KeepListed(jobs[1..], query)
  }

  /** `filteredJobs`: everything for an empty query, else the listed jobs. */
  function FilterJobs(jobs: seq<Job>, query: string): (rs: seq<Job>)
    ensures query == "" ==> rs == jobs
    ensures query != "" ==> forall j :: j in rs <==> j in jobs && Listed(j, query)
  {
    if query == "" then jobs else KeepListed(jobs, query)
  }

  /** The filter keeps the jobs in the order they were given. */
  lemma {:induction false} FilterJobsSubsequence(jobs: seq<Job>, query: string)
    ensures IsSubsequence(FilterJobs(jobs, query), jobs)
  {
    if query == "" {
      SubsequenceOfItself(jobs);
    } else {
      KeepListedSubsequence(jobs, query);
    }
  }

  lemma {:induction false} KeepListedSubsequence(jobs: seq<Job>, query: string)
    ensures IsSubsequence(KeepListed(jobs, query), jobs)
  {
    if jobs != [] {
      KeepListedSubsequence(jobs[1..], query);
      var rest := KeepListed(jobs[1..], query);
      if Listed(jobs[0], query) {
        assert ([jobs[0]] + rest)[1..] == rest;
      } else {
        assert [] + rest == rest;
      }
    }
  }

  lemma {:induction false} SubsequenceOfItself<T>(xs: seq<T>)
    ensures IsSubsequence(xs, xs)
  {
    if xs != [] {
      SubsequenceOfItself(xs[1..]);
    }
  }

  /** Location, salary and the other fields are not searched: changing them
      does not change whether a job is listed. */
  lemma UnsearchedFields(job: Job, query: string, location: string, salary: string, kind: string)
    ensures Listed(job.(location := location, salary := salary, kind := kind), query) == Listed(job, query)
  {
  }

  /** The query's letter case does not matter. */
  lemma QueryCaseIgnored(job: Job, q1: string, q2: string)
    requires Lower(q1) == Lower(q2)
    ensures Listed(job, q1) == Listed(job, q2)
  {
  }
}

=== FILE: linkedin.dfy ===
/** The LinkedIn scraper: search URL with `%20`-encoded spaces and the
    past-24-hours filter, card-to-record mapping, the cap, and its error policy
    (a page-level failure is swallowed into an empty list). */
module LinkedIn {
  import opened Common
  import opened JobRecords

  const SearchBase: string := "https://www.linkedin.com/jobs/search?keywords="
  const PastDay: string := "&f_TPR=r86400"

  /** `s.replace(' ', '%20')`. */
  function EncodeSpaces(s: string): (r: string)
    ensures ' ' !in r
    ensures ' ' !in s ==> r == s
    ensures |r| >= |s|
  {
    if s == [] then []
    else (if s[0] == ' ' then "%20" else [s[0]]) + EncodeSpaces(s[1..])
  }

  /** Turns every `%20` back into a space, scanning left to right. */
  function DecodeSpaces(s: string): string {
    if s == [] then []
    else if StartsWith(s, "%20") then [' '] + DecodeSpaces(s[3..])
    else [s[0]] + DecodeSpaces(s[1..])
  }

  /** The encoding loses nothing for text without a '%': decoding gives it back. */
  lemma {:induction false} DecodeEncodeSpaces(s: string)
    requires '%' !in s
    ensures DecodeSpaces(EncodeSpaces(s)) == s
  {
    if s != [] {
      var e := EncodeSpaces(s);
      assert '%' !in s[1..];
      DecodeEncodeSpaces(s[1..]);
      if s[0] == ' ' {
        assert e == "%20" + EncodeSpaces(s[1..]);
        assert e[3..] == EncodeSpaces(s[1..]);
      } else {
        assert e == [s[0]] + EncodeSpaces(s[1..]);
        assert e[1..] == EncodeSpaces(s[1..]);
        assert !StartsWith(e, "%20");
      }
      assert s == [s[0]] + s[1..];
    }
  }

  /** The search page. The location part is there only for a non-empty location. */
  function SearchUrl(keyword: string, location: string): (url: string)
    ensures StartsWith(url, SearchBase + EncodeSpaces(keyword)) && EndsWith(url, PastDay)
    ensures location == "" ==> url == SearchBase + EncodeSpaces(keyword) + PastDay
    ensures location != "" ==>
              url == SearchBase + EncodeSpaces(keyword) + "&location=" + EncodeSpaces(location) + PastDay
  {
    var filter := if location != "" then "&location=" + EncodeSpaces(location) else "";
    SearchBase + EncodeSpaces(keyword) + filter + PastDay
  }

  /** With a location, the text between the keyword and the time filter is the
      encoded location parameter; without one, nothing lies between them. */
  lemma SearchUrlLocationPart(keyword: string, location: string)
    ensures var url := SearchUrl(keyword, location);
            var from := |SearchBase| + |EncodeSpaces(keyword)|;
            from <= |url| - |PastDay|
            && url[from..|url| - |PastDay|] == (if location == "" then "" else "&location=" + EncodeSpaces(location))
  {
  }

  /** One `base-card`: each DOM lookup is the text (or `href`) it finds, or None.
      A card whose parsing raises is `Unreadable`. */
  datatype Card =
    | Card(title: Option<string>, company: Option<string>, location: Option<string>, href: Option<string>, posted: Option<string>)
    | Unreadable

  /** The record built from a readable card. */
  function Record(c: Card): (r: Posting)
    requires c.Card?
    ensures HasScraperKeys(r)
    ensures r.source == Some("LinkedIn")
    ensures r.experience == Some(NotAvailable) && r.salary == Some(NotAvailable)
    ensures r.description == Some("Job posted " + TextOr(c.posted, NotAvailable))
    ensures r.title == Some(if c.title.Some? then Strip(c.title.value) else NotAvailable)
    ensures r.company == Some(if c.company.Some? then Strip(c.company.value) else NotAvailable)
    ensures r.location == Some(if c.location.Some? then Strip(c.location.value) else NotAvailable)
    ensures r.url == Some(if c.href.Some? then c.href.value else NotAvailable)
  {
    Posting(
      title := Some(TextOr(c.title, NotAvailable)),
      company := Some(TextOr(c.company, NotAvailable)),
      location := Some(TextOr(c.location, NotAvailable)),
      experience := Some(NotAvailable),
      salary := Some(NotAvailable),
      description := Some("Job posted " + TextOr(c.posted, NotAvailable)),
      url := Some(if c.href.Some? then c.href.value else NotAvailable),
      source := Some("LinkedIn"),
      keyword := None,
      scrapedAt := None)
  }

  /** What a card yields: its record, or nothing when its parsing raises. */
  function Build(c: Card): (r: Option<Posting>)
    ensures c.Unreadable? <==> r.None?
    ensures r.Some? ==> HasScraperKeys(r.value) && r.value.source == Some("LinkedIn")
  {
    if c.Card? then Some(Record(c)) else None
  }

  function Records(cards: seq<Card>): seq<Posting> {
    Collect(cards, Build)
  }

  /** What one scrape returns for a page: a failure becomes the empty list. */
  function PageOutcome(page: Page<Card>, maxJobs: int): Outcome {
    match page
    case Failed(_) => Scraped([])
    case Loaded(cards) => Scraped(Records(Take(cards, maxJobs)))
  }

  /** The scraper never raises; it returns at most `max_jobs` records, each
      tagged with the LinkedIn source, and nothing at all for a failed page. */
  lemma PageOutcomeProperties(page: Page<Card>, maxJobs: int)
    ensures PageOutcome(page, maxJobs).Scraped?
    ensures page.Failed? ==> PageOutcome(page, maxJobs).jobs == []
    ensures |PageOutcome(page, maxJobs).jobs| <= (if maxJobs < 0 then 0 else maxJobs)
    ensures forall p :: p in PageOutcome(page, maxJobs).jobs ==> HasScraperKeys(p) && p.source == Some("LinkedIn")
  {
    if page.Loaded? {
      CollectFromCards(Take(page.cards, maxJobs), Build);
    }
  }

  class LinkedInScraper {
    const headless: bool
    /** Whether a browser session is open (`self.driver` is not None). */
    var driverOpen: bool

    constructor(headless: bool)
      ensures this.headless == headless && !driverOpen
    {
      this.headless := headless;
      driverOpen := false;
    }

    method SetupDriver()
      modifies this
      ensures driverOpen
    {
      driverOpen := true;
    }

    /** Quits the browser if one is open; calling it again changes nothing. */
    method CloseDriver()
      modifies this
      ensures !driverOpen
    {
      if driverOpen {
        driverOpen := false;
      }
    }

    method ScrapeJobs(pages: map<string, Page<Card>>, keyword: string := "software developer", location: string := "", maxJobs: int := 20)
      returns (out: Outcome)
      modifies this
      ensures !driverOpen
      ensures out == PageOutcome(Load(pages, SearchUrl(keyword, location)), maxJobs)
    {
      SetupDriver();
      var page := Load(pages, SearchUrl(keyword, location));
      match page {
        case Failed(_) =>
          out := Scraped([]);
        case Loaded(cards) =>
          var jobs := CollectRecords(cards, maxJobs, Build);
          out := Scraped(jobs);
      }
      CloseDriver();
    }
  }
}

=== FILE: naukri.dfy ===
/** The Naukri.com scraper: search URL, card-to-record mapping, the `max_jobs`
    cap, and its error policy (a page-level failure is re-raised to the caller). */
module Naukri {
  import opened Common
  import opened JobRecords

  const SiteBase: string := "https://www.naukri.com/"

  /** The first row's link: its text and, when it has one, its `href`. */
  datatype TitleLink = TitleLink(text: string, href: Option<string>)

  /** The `job-details` block of the third row. */
  datatype JobDetails = JobDetails(location: Option<string>, experience: Option<string>, salary: Option<string>)

  /** One `srp-jobtuple-wrapper` card: each DOM lookup is the text it finds or
      None. A card whose parsing raises is `Unreadable`. */
  datatype Card =
    | Card(link: Option<TitleLink>, company: Option<string>, details: Option<JobDetails>, description: Option<string>)
    | Unreadable

  /** The search page for a keyword; the keyword is used as written, without encoding. */
  function SearchUrl(keyword: string): (url: string)
    ensures StartsWith(url, SiteBase) && EndsWith(url, "-jobs")
    ensures |url| == |SiteBase| + |keyword| + |"-jobs"|
    ensures url[|SiteBase|..|url| - |"-jobs"|] == keyword
  {
    SiteBase + keyword + "-jobs"
  }

  /** The search page for a keyword in a location. */
  function LocationSearchUrl(keyword: string, location: string): (url: string)
    ensures StartsWith(url, SiteBase + keyword + "-jobs-in-") && EndsWith(url, location)
    ensures url[|SiteBase|..|SiteBase| + |keyword|] == keyword
  {
    SiteBase + keyword + "-jobs-in-" + location
  }

  /** The record built from a readable card. */
  function Record(c: Card): (r: Posting)
    requires c.Card?
    ensures HasScraperKeys(r) && r.source.None? && r.keyword.None? && r.scrapedAt.None?
    ensures r.title == Some(if c.link.Some? then Strip(c.link.value.text) else NotAvailable)
    ensures r.url == Some(if c.link.Some? && c.link.value.href.Some? then c.link.value.href.value else NotAvailable)
    ensures r.company == Some(TextOr(c.company, NotAvailable))
    ensures r.location == Some(if c.details.Some? then TextOr(c.details.value.location, NotAvailable) else NotAvailable)
    ensures r.experience == Some(if c.details.Some? then TextOr(c.details.value.experience, NotAvailable) else NotAvailable)
    ensures r.salary == Some(if c.details.Some? then TextOr(c.details.value.salary, NotAvailable) else NotAvailable)
    ensures r.description == Some(TextOr(c.description, NotAvailable))
  {
    var title := if c.link.Some? then Strip(c.link.value.text) else NotAvailable;
    var url := if c.link.Some? && c.link.value.href.Some? then c.link.value.href.value else NotAvailable;
    var d := c.details;
    Posting(
      title := Some(title),
      company := Some(TextOr(c.company, NotAvailable)),
      location := Some(if d.Some? then TextOr(d.value.location, NotAvailable) else NotAvailable),
      experience := Some(if d.Some? then TextOr(d.value.experience, NotAvailable) else NotAvailable),
      salary := Some(if d.Some? then TextOr(d.value.salary, NotAvailable) else NotAvailable),
      description := Some(TextOr(c.description, NotAvailable)),
      url := Some(url),
      source := None,
      keyword := None,
      scrapedAt := None)
  }

  /** What a card yields: its record, or nothing when its parsing raises. */
  function Build(c: Card): (r: Option<Posting>)
    ensures c.Unreadable? <==> r.None?
    ensures r.Some? ==> HasScraperKeys(r.value) && r.value.source.None?
  {
    if c.Card? then Some(Record(c)) else None
  }

  /** The records of the readable cards, in card order. */
  function Records(cards: seq<Card>): seq<Posting> {
    Collect(cards, Build)
  }

  /** Never more records than cards, and every record has the seven keys and no source. */
  lemma RecordsShape(cards: seq<Card>)
    ensures |Records(cards)| <= |cards|
    ensures forall p :: p in Records(cards) ==> HasScraperKeys(p) && p.source.None?
  {
    CollectFromCards(cards, Build);
  }

  /** What one scrape returns for a page: its failure is raised again; otherwise
      the records of the first `max_jobs` cards. */
  function PageOutcome(page: Page<Card>, maxJobs: int): Outcome {
    match page
    case Failed(e) => Raised(e)
    case Loaded(cards) => Scraped(Records(Take(cards, maxJobs)))
  }

  /** The error policy and the cap: a failed page is re-raised with its message,
      a loaded one gives at most `max_jobs` records with no source key. */
  lemma PageOutcomeProperties(page: Page<Card>, maxJobs: int)
    ensures page.Failed? <==> PageOutcome(page, maxJobs).Raised?
    ensures page.Failed? ==> PageOutcome(page, maxJobs).error == page.error
    ensures PageOutcome(page, maxJobs).Scraped? ==>
              |PageOutcome(page, maxJobs).jobs| <= (if maxJobs < 0 then 0 else maxJobs)
              && forall p :: p in PageOutcome(page, maxJobs).jobs ==> HasScraperKeys(p) && p.source.None?
  {
    if page.Loaded? {
      RecordsShape(Take(page.cards, maxJobs));
    }
  }

  class NaukriScraper {
    const headless: bool
    /** Whether a browser session is open (`self.driver` is not None). */
    var driverOpen: bool

    constructor(headless: bool)
      ensures this.headless == headless && !driverOpen
    {
      this.headless := headless;
      driverOpen := false;
    }

    method SetupDriver()
      modifies this
      ensures driverOpen
    {
      driverOpen := true;
    }

    /** Quits the browser if one is open; calling it again changes nothing. */
    method CloseDriver()
      modifies this
      ensures !driverOpen
    {
      if driverOpen {
        driverOpen := false;
      }
    }

    method ScrapeJobs(pages: map<string, Page<Card>>, keyword: string := "python-developer", maxJobs: int := 20)
      returns (out: Outcome)
      modifies this
      ensures !driverOpen
      ensures out == PageOutcome(Load(pages, SearchUrl(keyword)), maxJobs)
    {
      SetupDriver();
      var page := Load(pages, SearchUrl(keyword));
      match page {
        case Failed(e) =>
          out := Raised(e);
        case Loaded(cards) =>
          var jobs := CollectRecords(cards, maxJobs, Build);
          out := Scraped(jobs);
      }
      CloseDriver();
    }

    method ScrapeJobsByLocation(pages: map<string, Page<Card>>, keyword: string, location: string, maxJobs: int := 20)
      returns (out: Outcome)
      modifies this
      ensures !driverOpen
      ensures out == PageOutcome(Load(pages, LocationSearchUrl(keyword, location)), maxJobs)
    {
      SetupDriver();
      var page := Load(pages, LocationSearchUrl(keyword, location));
      match page {
        case Failed(e) =>
          out := Raised(e);
        case Loaded(cards) =>
          var jobs := CollectRecords(cards, maxJobs, Build);
          out := Scraped(jobs);
      }
      CloseDriver();
    }
  }
}

=== FILE: scraper_manager.dfy ===
/** The job scraper manager: runs the enabled sources one after another, stamps
    each source's records with the query keyword and a timestamp, and folds the
    per-source outcomes into one job list, a per-source count map and an error map. */
module ScraperManager {
  import opened Common
  import opened JobRecords
  import Naukri
  import LinkedIn
  import Unstop

  const DefaultSources: seq<string> := ["naukri", "linkedin", "unstop"]

  /** What each site serves: the pages every scraper may load. */
  datatype Web = Web(
    naukri: map<string, Page<Naukri.Card>>,
    linkedin: map<string, Page<LinkedIn.Card>>,
    unstop: map<string, Unstop.Soup>)

  /** The result dictionary of one aggregated scrape. */
  datatype Aggregation = Aggregation(
    success: bool,
    keyword: string,
    location: Option<string>,
    totalJobs: nat,
    jobs: seq<Posting>,
    sourceStats: map<string, nat>,
    errors: Option<map<string, string>>,
    scrapedAt: string)

  /** What the scraper chosen for `source` returns. Names are compared in lower
      case; Naukri switches to its location search for a non-empty location,
      LinkedIn gets the location or "", Unstop searches the "jobs" category; any
      other name runs nothing and yields no records. */
  function SourceOutcome(web: Web, source: string, keyword: string, location: Option<string>, maxJobs: int): Outcome {
    var name := Lower(source);
    if name == "naukri" then
      if Present(location) then
        Naukri.PageOutcome(Load(web.naukri, Naukri.LocationSearchUrl(keyword, location.value)), maxJobs)
      else
        Naukri.PageOutcome(Load(web.naukri, Naukri.SearchUrl(keyword)), maxJobs)
    else if name == "linkedin" then
      LinkedIn.PageOutcome(Load(web.linkedin, LinkedIn.SearchUrl(keyword, if Present(location) then location.value else "")), maxJobs)
    else if name == "unstop" then
      Unstop.PageOutcome(Unstop.LoadSoup(web.unstop, Unstop.CategoryUrl(keyword, "jobs")), maxJobs)
    else
      Scraped([])
  }

  /** Only Naukri lets a page failure through; an unknown source yields nothing,
      and every source yields at most `max_jobs_per_source` records. */
  lemma SourceOutcomeProperties(web: Web, source: string, keyword: string, location: Option<string>, maxJobs: int)
    ensures SourceOutcome(web, source, keyword, location, maxJobs).Raised? ==> Lower(source) == "naukri"
    ensures Lower(source) !in DefaultSources ==> SourceOutcome(web, source, keyword, location, maxJobs) == Scraped([])
    ensures SourceOutcome(web, source, keyword, location, maxJobs).Scraped? ==>
              |SourceOutcome(web, source, keyword, location, maxJobs).jobs| <= (if maxJobs < 0 then 0 else maxJobs)
  {
    var name := Lower(source);
    if name == "naukri" {
      if Present(location) {
        Naukri.PageOutcomeProperties(Load(web.naukri, Naukri.LocationSearchUrl(keyword, location.value)), maxJobs);
      } else {
        Naukri.PageOutcomeProperties(Load(web.naukri, Naukri.SearchUrl(keyword)), maxJobs);
      }
    } else if name == "linkedin" {
      LinkedIn.PageOutcomeProperties(Load(web.linkedin, LinkedIn.SearchUrl(keyword, if Present(location) then location.value else "")), maxJobs);
    } else if name == "unstop" {
      Unstop.PageOutcomeProperties(Unstop.LoadSoup(web.unstop, Unstop.CategoryUrl(keyword, "jobs")), maxJobs);
    }
  }

  /** A record with the query keyword and the scrape time added. */
  function Stamp(p: Posting, keyword: string, now: string): (r: Posting)
    ensures r.keyword == Some(keyword) && r.scrapedAt == Some(now)
    ensures r.(keyword := p.keyword, scrapedAt := p.scrapedAt) == p
  {
    p.(scrapedAt := Some(now), keyword := Some(keyword))
  }

  function StampAll(jobs: seq<Posting>, keyword: string, now: string): (r: seq<Posting>)
    ensures |r| == |jobs|
    ensures forall i :: 0 <= i < |jobs| ==> r[i] == Stamp(jobs[i], keyword, now)
  {
    seq(|jobs|, i requires 0 <= i < |jobs| => Stamp(jobs[i], keyword, now))
  }

  /** The number of records a source contributes to `source_stats`. */
  function CountOf(o: Outcome): nat {
    if o.Scraped? then |o.jobs| else 0
  }

  // The three accumulators of the loop, over the outcomes of the first sources.

  function Gathered(runs: seq<(string, Outcome)>, keyword: string, now: string): seq<Posting> {
    if runs == [] then []
    else
      var last := runs[|runs| - 1].1;
      Gathered(runs[..|runs| - 1], keyword, now) + (if last.Scraped? then StampAll(last.jobs, keyword, now) else [])
  }

  function Counts(runs: seq<(string, Outcome)>): map<string, nat> {
    if runs == [] then map[]
    else Counts(runs[..|runs| - 1])[runs[|runs| - 1].0 := CountOf(runs[|runs| - 1].1)]
  }

  function Errors(runs: seq<(string, Outcome)>): map<string, string> {
    if runs == [] then map[]
    else
      var (source, o) := runs[|runs| - 1];
      if o.Raised? then Errors(runs[..|runs| - 1])[source := o.error] else Errors(runs[..|runs| - 1])
  }

  /** The outcome of each source, in `sources` order. */
  function Runs(web: Web, sources: seq<string>, keyword: string, location: Option<string>, maxJobs: int): (runs: seq<(string, Outcome)>)
    ensures |runs| == |sources|
    ensures forall i :: 0 <= i < |sources| ==> runs[i] == (sources[i], SourceOutcome(web, sources[i], keyword, location, maxJobs))
  {
    seq(|sources|, i requires 0 <= i < |sources| => (sources[i], SourceOutcome(web, sources[i], keyword, location, maxJobs)))
  }

  /** The returned dictionary; `errors` is None when no source raised. */
  function Aggregate(runs: seq<(string, Outcome)>, keyword: string, location: Option<string>, now: string): (r: Aggregation)
    ensures r.success
    ensures r.totalJobs == |r.jobs|
  {
    var jobs := Gathered(runs, keyword, now);
    var errors := Errors(runs);
    Aggregation(true, keyword, location, |jobs|, jobs, Counts(runs), if errors != map[] then Some(errors) else None, now)
  }

  /** One more source: its records are appended, its count set, its error filed. */
  lemma FoldStep(runs: seq<(string, Outcome)>, i: nat, keyword: string, now: string)
    requires i < |runs|
    ensures Gathered(runs[..i + 1], keyword, now) ==
              Gathered(runs[..i], keyword, now) + (if runs[i].1.Scraped? then StampAll(runs[i].1.jobs, keyword, now) else [])
    ensures Counts(runs[..i + 1]) == Counts(runs[..i])[runs[i].0 := CountOf(runs[i].1)]
    ensures Errors(runs[..i + 1]) ==
              if runs[i].1.Raised? then Errors(runs[..i])[runs[i].0 := runs[i].1.error] else Errors(runs[..i])
  {
    assert runs[..i + 1][..i] == runs[..i];
  }

  /** The job list of a longer run is the job list so far followed by the later
      sources' records: sources contribute in order, each keeping its own order. */
  lemma {:induction false} GatheredAppend(a: seq<(string, Outcome)>, b: seq<(string, Outcome)>, keyword: string, now: string)
    ensures Gathered(a + b, keyword, now) == Gathered(a, keyword, now) + Gathered(b, keyword, now)
    decreases |b|
  {
    if b == [] {
      assert a + b == a;
    } else {
      var b' := b[..|b| - 1];
      assert (a + b)[..|a + b| - 1] == a + b';
      GatheredAppend(a, b', keyword, now);
    }
  }

  /** Every gathered record carries the query keyword and the scrape time, and
      comes from a source that did not raise. */
  lemma {:induction false} GatheredStamped(runs: seq<(string, Outcome)>, keyword: string, now: string)
    ensures forall p :: p in Gathered(runs, keyword, now) ==> p.keyword == Some(keyword) && p.scrapedAt == Some(now)
    ensures (forall i :: 0 <= i < |runs| ==> runs[i].1.Raised?) ==> Gathered(runs, keyword, now) == []
  {
    if runs != [] {
      GatheredStamped(runs[..|runs| - 1], keyword, now);
    }
  }

  /** `errors` is empty exactly when every source returned records. */
  lemma {:induction false} ErrorsEmptyIff(runs: seq<(string, Outcome)>)
    ensures Errors(runs) == map[] <==> forall i :: 0 <= i < |runs| ==> runs[i].1.Scraped?
  {
    if runs != [] {
      var init := runs[..|runs| - 1];
      ErrorsEmptyIff(init);
      ErrorsKeys(init);
      if runs[|runs| - 1].1.Raised? {
        assert runs[|runs| - 1].0 in Errors(runs);
      } else {
        forall i | 0 <= i < |init| ensures init[i] == runs[i] { }
      }
    }
  }

  /** Every error is filed under the name of a source that raised. */
  lemma {:induction false} ErrorsKeys(runs: seq<(string, Outcome)>)
    ensures forall s :: s in Errors(runs) ==> exists i :: 0 <= i < |runs| && runs[i].0 == s && runs[i].1.Raised?
  {
    if runs != [] {
      var init := runs[..|runs| - 1];
      ErrorsKeys(init);
      forall s | s in Errors(runs)
        ensures exists i :: 0 <= i < |runs| && runs[i].0 == s && runs[i].1.Raised?
      {
        if s in Errors(init) {
          var i :| 0 <= i < |init| && init[i].0 == s && init[i].1.Raised?;
          assert runs[i] == init[i];
        } else {
          assert runs[|runs| - 1].0 == s;
        }
      }
    }
  }

  /** The names every source was filed under. */
  ghost function Names(runs: seq<(string, Outcome)>): set<string> {
    set i | 0 <= i < |runs| :: runs[i].0
  }

  ghost predicate DistinctNames(runs: seq<(string, Outcome)>) {
    forall i, j :: 0 <= i < j < |runs| ==> runs[i].0 != runs[j].0
  }

  lemma {:induction false} CountsKeys(runs: seq<(string, Outcome)>)
    ensures Counts(runs).Keys == Names(runs)
  {
    if runs != [] {
      var init := runs[..|runs| - 1];
      CountsKeys(init);
      forall s | s in Names(runs) ensures s in Counts(runs) {
        var i :| 0 <= i < |runs| && runs[i].0 == s;
        if i < |runs| - 1 {
          assert init[i] == runs[i];
        }
      }
      forall s | s in Counts(runs) ensures s in Names(runs) {
        if s in Names(init) {
          var i :| 0 <= i < |init| && init[i].0 == s;
          assert runs[i] == init[i];
        } else {
          assert runs[|runs| - 1].0 == s;
        }
      }
    }
  }

  /** With distinct source names, each source's entry is its own count, and an
      error entry exists exactly for the sources that raised, with their message. */
  lemma {:induction false} EntriesOfDistinct(runs: seq<(string, Outcome)>)
    requires DistinctNames(runs)
    ensures forall i :: 0 <= i < |runs| ==> runs[i].0 in Counts(runs) && Counts(runs)[runs[i].0] == CountOf(runs[i].1)
    ensures forall i :: 0 <= i < |runs| ==>
              (runs[i].0 in Errors(runs) <==> runs[i].1.Raised?)
              && (runs[i].1.Raised? ==> Errors(runs)[runs[i].0] == runs[i].1.error)
  {
    if runs != [] {
      var n := |runs| - 1;
      var init := runs[..n];
      EntriesOfDistinct(init);
      ErrorsKeys(init);
      forall i | 0 <= i < |runs|
        ensures runs[i].0 in Counts(runs) && Counts(runs)[runs[i].0] == CountOf(runs[i].1)
        ensures runs[i].0 in Errors(runs) <==> runs[i].1.Raised?
        ensures runs[i].1.Raised? ==> Errors(runs)[runs[i].0] == runs[i].1.error
      {
        if i < n {
          assert init[i] == runs[i];
          assert runs[i].0 != runs[n].0;
        } else {
          forall j | 0 <= j < |init| ensures init[j].0 != runs[n].0 {
            assert init[j] == runs[j];
          }
          assert runs[n].0 !in Errors(init);
        }
      }
    }
  }

  /** With distinct source names, `total_jobs` is the sum of `source_stats`. */
  lemma {:induction false} CountsSumToTotal(runs: seq<(string, Outcome)>, keyword: string, now: string)
    requires DistinctNames(runs)
    ensures MapSum(Counts(runs)) == |Gathered(runs, keyword, now)|
  {
    if runs != [] {
      var n := |runs| - 1;
      var init := runs[..n];
      assert DistinctNames(init) by {
        forall i, j | 0 <= i < j < |init| ensures init[i].0 != init[j].0 {
          assert init[i] == runs[i] && init[j] == runs[j];
        }
      }
      CountsSumToTotal(init, keyword, now);
      CountsKeys(init);
      forall i | 0 <= i < |init| ensures init[i].0 != runs[n].0 {
        assert init[i] == runs[i];
      }
      assert runs[n].0 !in Names(init);
      MapSumUpdate(Counts(init), runs[n].0, CountOf(runs[n].1));
    }
  }

  /** `scrape_by_domain`'s table from a lower-cased domain to a search keyword. */
  const DomainKeywords: map<string, string> := map[
    "tech" := "software developer",
    "design" := "designer",
    "business" := "business analyst",
    "hr" := "human resources",
    "security" := "cybersecurity",
    "healthcare" := "healthcare",
    "data" := "data scientist",
    "marketing" := "marketing manager",
    "sales" := "sales executive"]

  /** The keyword searched for a domain: the table's entry for the lower-cased
      domain, or the domain itself, as given, when the table has none. */
  function DomainKeyword(domain: string): (keyword: string)
    ensures Lower(domain) in DomainKeywords ==> keyword == DomainKeywords[Lower(domain)]
    ensures Lower(domain) !in DomainKeywords ==> keyword == domain
  {
    var d := Lower(domain);
    if d in DomainKeywords then DomainKeywords[d] else domain
  }

  /** Domains that differ only in the case of their letters search the same
      keyword whenever the table knows them. */
  lemma DomainKeywordCaseInsensitive(d1: string, d2: string)
    requires Lower(d1) == Lower(d2) && Lower(d1) in DomainKeywords
    ensures DomainKeyword(d1) == DomainKeyword(d2)
  {
  }

  class JobScraperManager {
    const headless: bool

    constructor(headless: bool)
      ensures this.headless == headless
    {
      this.headless := headless;
    }

    /** Runs the scraper of one source on a fresh scraper object. */
    method RunSource(web: Web, source: string, keyword: string, location: Option<string>, maxJobs: int)
      returns (out: Outcome)
      ensures out == SourceOutcome(web, source, keyword, location, maxJobs)
    {
      var name := Lower(source);
      if name == "naukri" {
        var scraper := new Naukri.NaukriScraper(headless);
        if Present(location) {
          out := scraper.ScrapeJobsByLocation(web.naukri, keyword, location.value, maxJobs);
        } else {
          out := scraper.ScrapeJobs(web.naukri, keyword, maxJobs);
        }
      } else if name == "linkedin" {
        var scraper := new LinkedIn.LinkedInScraper(headless);
        out := scraper.ScrapeJobs(web.linkedin, keyword, if Present(location) then location.value else "", maxJobs);
      } else if name == "unstop" {
        var scraper := new Unstop.UnstopScraper(headless);
        out := scraper.ScrapeJobs(web.unstop, keyword, "jobs", maxJobs);
      } else {
        out := Scraped([]);
      }
    }

    /** Adds the keyword and the time to each of one source's records. */
    static method StampJobs(jobs: seq<Posting>, keyword: string, now: string) returns (stamped: seq<Posting>)
      ensures stamped == StampAll(jobs, keyword, now)
    {
      stamped := [];
      var k := 0;
      while k < |jobs|
        invariant 0 <= k <= |jobs|
        invariant stamped == StampAll(jobs[..k], keyword, now)
      {
        stamped := stamped + [Stamp(jobs[k], keyword, now)];
        k := k + 1;
      }
    }

    /** The loop body after a source has run: its stamped records are appended
        and its count set, or its error filed and its count set to 0. */
    static method Tally(allJobs: seq<Posting>, sourceStats: map<string, nat>, errors: map<string, string>,
                        source: string, out: Outcome, keyword: string, now: string,
                        ghost runs: seq<(string, Outcome)>, ghost i: nat)
      returns (allJobs': seq<Posting>, sourceStats': map<string, nat>, errors': map<string, string>)
      requires i < |runs| && runs[i] == (source, out)
      requires allJobs == Gathered(runs[..i], keyword, now)
      requires sourceStats == Counts(runs[..i]) && errors == Errors(runs[..i])
      ensures allJobs' == allJobs + (if out.Scraped? then StampAll(out.jobs, keyword, now) else [])
      ensures sourceStats' == sourceStats[source := CountOf(out)]
      ensures errors' == if out.Raised? then errors[source := out.error] else errors
      ensures allJobs' == Gathered(runs[..i + 1], keyword, now)
      ensures sourceStats' == Counts(runs[..i + 1]) && errors' == Errors(runs[..i + 1])
    {
      FoldStep(runs, i, keyword, now);
      match out {
        case Scraped(jobs) =>
          var stamped := StampJobs(jobs, keyword, now);
          allJobs' := allJobs + stamped;
          sourceStats' := sourceStats[source := |jobs|];
          errors' := errors;
        case Raised(e) =>
          allJobs' := allJobs;
          errors' := errors[source := e];
          sourceStats' := sourceStats[source := 0];
      }
    }

    /** `scrape_all_sources`: the sources are run one after another; `now` is the
        clock reading used for every timestamp. */
    method ScrapeAllSources(web: Web, keyword: string, now: string, location: Option<string> := None,
                            maxJobsPerSource: int := 10, sources: Option<seq<string>> := None)
      returns (result: Aggregation)
      ensures result == Aggregate(Runs(web, sources.GetOr(DefaultSources), keyword, location, maxJobsPerSource), keyword, location, now)
    {
      var names := if sources.Some? then sources.value else DefaultSources;
      ghost var runs := Runs(web, names, keyword, location, maxJobsPerSource);
      var allJobs: seq<Posting> := [];
      var sourceStats: map<string, nat> := map[];
      var errors: map<string, string> := map[];
      var i := 0;
      while i < |names|
        invariant 0 <= i <= |names|
        invariant allJobs == Gathered(runs[..i], keyword, now)
        invariant sourceStats == Counts(runs[..i])
        invariant errors == Errors(runs[..i])
      {
        var out := RunSource(web, names[i], keyword, location, maxJobsPerSource);
        allJobs, sourceStats, errors := Tally(allJobs, sourceStats, errors, names[i], out, keyword, now, runs, i);
        i := i + 1;
      }
      assert runs[..i] == runs;
      result := Aggregation(true, keyword, location, |allJobs|, allJobs, sourceStats, if errors != map[] then Some(errors) else None, now);
    }

    /** `scrape_by_domain`: the domain's keyword searched on the three default sources. */
    method ScrapeByDomain(web: Web, domain: string, now: string, location: Option<string> := None, maxJobsPerSource: int := 10)
      returns (result: Aggregation)
      ensures result == Aggregate(Runs(web, DefaultSources, DomainKeyword(domain), location, maxJobsPerSource),
                                  DomainKeyword(domain), location, now)
    {
      result := ScrapeAllSources(web, DomainKeyword(domain), now, location, maxJobsPerSource);
    }
  }
}

=== FILE: sorting.dfy ===
/** Stable ordering by a key, largest key first. Python's `list.sort(key=...,
    reverse=True)` is stable (elements with equal keys keep their order), and a
    query's `ORDER BY created_at DESC` is modelled the same way; a stable sort
    has exactly one possible result, which insertion sort computes. */
module Sorting {
  import opened Common

  /** Non-increasing by `key`. */
  ghost predicate SortedDesc<T>(xs: seq<T>, key: T -> real) {
    forall i, j :: 0 <= i < j < |xs| ==> key(xs[i]) >= key(xs[j])
  }

  /** Puts `x` in front of the first element whose key is not greater than its own,
      so that `x` stays ahead of every element with an equal key. */
  function InsertDesc<T>(x: T, s: seq<T>, key: T -> real): (r: seq<T>)
    ensures |r| == |s| + 1
    ensures multiset(r) == multiset(s) + multiset{x}
    ensures forall y :: y in r ==> y in s || y == x
    ensures SortedDesc(s, key) ==> SortedDesc(r, key)
  {
    if s == [] || key(x) >= key(s[0]) then [x] + s
    else
      var rest := InsertDesc(x, s[1..], key);
      assert s == [s[0]] + s[1..];
      InsertDescSorted(x, s, key, rest);
      [s[0]] + rest
  }

  lemma InsertDescSorted<T>(x: T, s: seq<T>, key: T -> real, rest: seq<T>)
    requires s != [] && key(x) < key(s[0])
    requires forall y :: y in rest ==> y in s[1..] || y == x
    requires SortedDesc(s, key) ==> SortedDesc(rest, key)
    ensures SortedDesc(s, key) ==> SortedDesc([s[0]] + rest, key)
  {
    if SortedDesc(s, key) {
      forall j | 0 < j < |[s[0]] + rest|
        ensures key(s[0]) >= key(([s[0]] + rest)[j])
      {
        assert ([s[0]] + rest)[j] in rest;
      }
    }
  }

  /** The stable sort of `xs`, largest key first. */
  function SortDesc<T>(xs: seq<T>, key: T -> real): (r: seq<T>)
    ensures |r| == |xs|
    ensures multiset(r) == multiset(xs)
    ensures SortedDesc(r, key)
  {
    if xs == [] then []
    else
      assert xs == [xs[0]] + xs[1..];
      InsertDesc(xs[0], SortDesc(xs[1..], key), key)
  }

  /** The elements whose key is `v`, in order. */
  function WithKey<T>(xs: seq<T>, key: T -> real, v: real): seq<T> {
    if xs == [] then [] else (if key(xs[0]) == v then [xs[0]] else []) + WithKey(xs[1..], key, v)
  }

  lemma {:induction false} WithKeyInsert<T>(x: T, s: seq<T>, key: T -> real, v: real)
    ensures WithKey(InsertDesc(x, s, key), key, v) == (if key(x) == v then [x] else []) + WithKey(s, key, v)
  {
    if s == [] || key(x) >= key(s[0]) {
      assert ([x] + s)[1..] == s;
    } else {
      var rest := InsertDesc(x, s[1..], key);
      assert ([s[0]] + rest)[1..] == rest;
      WithKeyInsert(x, s[1..], key, v);
    }
  }

  /** Stability: for every key value, the elements carrying it appear in the
      sorted result in the same order as in the input. */
  lemma {:induction false} SortDescStable<T>(xs: seq<T>, key: T -> real, v: real)
    ensures WithKey(SortDesc(xs, key), key, v) == WithKey(xs, key, v)
  {
    if xs != [] {
      SortDescStable(xs[1..], key, v);
      WithKeyInsert(xs[0], SortDesc(xs[1..], key), key, v);
    }
  }

  /** The elements with key `v` of a concatenation are those of each part, in order. */
  lemma {:induction false} WithKeyAppend<T>(a: seq<T>, b: seq<T>, key: T -> real, v: real)
    ensures WithKey(a + b, key, v) == WithKey(a, key, v) + WithKey(b, key, v)
  {
    if a == [] {
      assert a + b == b;
    } else {
      assert (a + b)[0] == a[0] && (a + b)[1..] == a[1..] + b;
      WithKeyAppend(a[1..], b, key, v);
    }
  }

  /** Keeping the first `n` of the sorted sequence keeps, for every key value,
      the first of the elements carrying it, in input order. */
  lemma TakeSortedStable<T>(xs: seq<T>, key: T -> real, n: int, v: real)
    ensures var kept := WithKey(Take(SortDesc(xs, key), n), key, v);
            |kept| <= |WithKey(xs, key, v)| && kept == WithKey(xs, key, v)[..|kept|]
  {
    var sorted := SortDesc(xs, key);
    var top := Take(sorted, n);
    assert sorted == top + sorted[|top|..];
    WithKeyAppend(top, sorted[|top|..], key, v);
    SortDescStable(xs, key, v);
  }

  /** Keeping the first `n` of the sorted sequence keeps the `n` largest keys:
      an element left out has a key no greater than any element kept. */
  lemma TakeSortedIsTop<T>(xs: seq<T>, key: T -> real, n: int, x: T)
    requires x in xs && x !in Take(SortDesc(xs, key), n)
    ensures forall y :: y in Take(SortDesc(xs, key), n) ==> key(y) >= key(x)
  {
    var sorted := SortDesc(xs, key);
    var top := Take(sorted, n);
    assert x in multiset(sorted);
    var j :| 0 <= j < |sorted| && sorted[j] == x;
    assert j >= |top|;
    forall y | y in top
      ensures key(y) >= key(x)
    {
      var i :| 0 <= i < |top| && top[i] == y;
      assert sorted[i] == y;
    }
  }
}

=== FILE: unstop.dfy ===
/** The Unstop scraper: category URLs, the fallback between three card
    selectors, the skip of untitled cards, the URL completion, and its error
    policy (any page-level failure is swallowed into an empty list). */
module Unstop {
  import opened Common
  import opened JobRecords

  const SiteBase: string := "https://unstop.com"

  /** The search page of a category: "jobs" and "internships" have their own
      listing, every other category falls through to competitions. */
  function CategoryUrl(keyword: string, category: string): (url: string)
    ensures category == "jobs" ==> url == SiteBase + "/jobs?search=" + keyword
    ensures category == "internships" ==> url == SiteBase + "/internships?search=" + keyword
    ensures category != "jobs" && category != "internships" ==> url == SiteBase + "/competitions?search=" + keyword
    ensures StartsWith(url, SiteBase + "/") && EndsWith(url, keyword)
  {
    var listing := if category == "jobs" then "/jobs" else if category == "internships" then "/internships" else "/competitions";
    SiteBase + listing + "?search=" + keyword
  }

  /** One candidate card: each DOM lookup (after its own `or` fallbacks between
      tags and classes) is the text or `href` it finds, or None. A card whose
      parsing raises is `Unreadable`. */
  datatype Card =
    | Card(title: Option<string>, company: Option<string>, location: Option<string>,
           href: Option<string>, deadline: Option<string>, stipend: Option<string>)
    | Unreadable

  /** The parsed page: the results of the three selectors tried in turn. */
  datatype Soup = Soup(opportunityCards: seq<Card>, cardDivs: seq<Card>, articles: seq<Card>)

  /** `a or b or c` on the three result lists: the first non-empty one. */
  function CardsOf(soup: Soup): (cards: seq<Card>)
    ensures soup.opportunityCards != [] ==> cards == soup.opportunityCards
    ensures soup.opportunityCards == [] && soup.cardDivs != [] ==> cards == soup.cardDivs
    ensures soup.opportunityCards == [] && soup.cardDivs == [] ==> cards == soup.articles
  {
    if soup.opportunityCards != [] then soup.opportunityCards
    else if soup.cardDivs != [] then soup.cardDivs
    else soup.articles
  }

  /** A relative link gets the site prefix; "N/A" and absolute links stay. */
  function AbsoluteUrl(href: string): (url: string)
    ensures url == NotAvailable || StartsWith(url, "http")
    ensures href == NotAvailable || StartsWith(href, "http") ==> url == href
    ensures EndsWith(url, href)
  {
    if href != NotAvailable && !StartsWith(href, "http") then SiteBase + href else href
  }

  /** Completing a link twice is completing it once. */
  lemma AbsoluteUrlIdempotent(href: string)
    ensures AbsoluteUrl(AbsoluteUrl(href)) == AbsoluteUrl(href)
  {
    if href != NotAvailable && !StartsWith(href, "http") {
      assert StartsWith(SiteBase + href, "http") by {
        assert (SiteBase + href)[..4] == "http";
      }
    }
  }

  /** The description: the deadline when one was found, a fixed hint otherwise. */
  function Description(deadline: string): (d: string)
    ensures deadline != NotAvailable ==> d == "Deadline: " + deadline
    ensures deadline == NotAvailable ==> d == "Check Unstop for details"
  {
    if deadline != NotAvailable then "Deadline: " + deadline else "Check Unstop for details"
  }

  /** The stripped title of a card; "N/A" when no heading was found. */
  function Title(c: Card): string
    requires c.Card?
  {
    TextOr(c.title, NotAvailable)
  }

  /** The record built from a readable card that has a title. */
  function Record(c: Card): (r: Posting)
    requires c.Card? && Title(c) != NotAvailable
    ensures HasScraperKeys(r) && r.source == Some("Unstop")
    ensures r.title == Some(Title(c)) && r.title != Some(NotAvailable)
    ensures r.company == Some(TextOr(c.company, "Unstop"))
    ensures r.location == Some(TextOr(c.location, "Remote/Various"))
    ensures r.experience == Some(NotAvailable)
    ensures r.salary == Some(TextOr(c.stipend, NotAvailable))
    ensures r.description == Some(Description(TextOr(c.deadline, NotAvailable)))
    ensures r.url == Some(AbsoluteUrl(if c.href.Some? then c.href.value else NotAvailable))
  {
    Posting(
      title := Some(Title(c)),
      company := Some(TextOr(c.company, "Unstop")),
      location := Some(TextOr(c.location, "Remote/Various")),
      experience := Some(NotAvailable),
      salary := Some(TextOr(c.stipend, NotAvailable)),
      description := Some(Description(TextOr(c.deadline, NotAvailable))),
      url := Some(AbsoluteUrl(if c.href.Some? then c.href.value else NotAvailable)),
      source := Some("Unstop"),
      keyword := None,
      scrapedAt := None)
  }

  /** What a card yields: nothing when its parsing raises or it has no title
      (a missing heading, or one whose text is literally "N/A"). */
  function Build(c: Card): (r: Option<Posting>)
    ensures r.None? <==> c.Unreadable? || Title(c) == NotAvailable
    ensures r.Some? ==> HasScraperKeys(r.value) && r.value.source == Some("Unstop")
  {
    if c.Card? && Title(c) != NotAvailable then Some(Record(c)) else None
  }

  function Records(cards: seq<Card>): seq<Posting> {
    Collect(cards, Build)
  }

  /** What one scrape returns: the records of the first `max_jobs` cards of the
      first non-empty selector, or nothing when the page cannot be loaded. */
  function PageOutcome(soup: Option<Soup>, maxJobs: int): Outcome {
    match soup
    case None => Scraped([])
    case Some(s) => Scraped(Records(Take(CardsOf(s), maxJobs)))
  }

  /** The scraper never raises; it returns at most `max_jobs` records, none of
      them titled "N/A", each with the Unstop source and an absolute or "N/A" URL. */
  lemma PageOutcomeProperties(soup: Option<Soup>, maxJobs: int)
    ensures PageOutcome(soup, maxJobs).Scraped?
    ensures soup.None? ==> PageOutcome(soup, maxJobs).jobs == []
    ensures |PageOutcome(soup, maxJobs).jobs| <= (if maxJobs < 0 then 0 else maxJobs)
    ensures forall p :: p in PageOutcome(soup, maxJobs).jobs ==>
              && HasScraperKeys(p) && p.source == Some("Unstop")
              && p.title != Some(NotAvailable)
              && (p.url == Some(NotAvailable) || StartsWith(p.url.value, "http"))
  {
    if soup.Some? {
      var cards := Take(CardsOf(soup.value), maxJobs);
      CollectFromCards(cards, Build);
      forall p | p in Records(cards)
        ensures p.title != Some(NotAvailable)
        ensures p.url == Some(NotAvailable) || StartsWith(p.url.value, "http")
      {
        var c :| c in cards && Build(c) == Some(p);
        assert p == Record(c);
      }
    }
  }

  /** The page served for `url`; a URL the map does not know cannot be loaded. */
  function LoadSoup(pages: map<string, Soup>, url: string): Option<Soup> {
    if url in pages then Some(pages[url]) else None
  }

  class UnstopScraper {
    const headless: bool
    /** Whether a browser session is open (`self.driver` is not None). */
    var driverOpen: bool

    constructor(headless: bool)
      ensures this.headless == headless && !driverOpen
    {
      this.headless := headless;
      driverOpen := false;
    }

    method SetupDriver()
      modifies this
      ensures driverOpen
    {
      driverOpen := true;
    }

    /** Quits the browser if one is open; calling it again changes nothing. */
    method CloseDriver()
      modifies this
      ensures !driverOpen
    {
      if driverOpen {
        driverOpen := false;
      }
    }

    method ScrapeJobs(pages: map<string, Soup>, keyword: string := "software", category: string := "jobs", maxJobs: int := 20)
      returns (out: Outcome)
      modifies this
      ensures !driverOpen
      ensures out == PageOutcome(LoadSoup(pages, CategoryUrl(keyword, category)), maxJobs)
    {
      SetupDriver();
      var soup := LoadSoup(pages, CategoryUrl(keyword, category));
      match soup {
        case None =>
          out := Scraped([]);
        case Some(s) =>
          var jobs := CollectRecords(CardsOf(s), maxJobs, Build);
          out := Scraped(jobs);
      }
      CloseDriver();
    }

    method ScrapeInternships(pages: map<string, Soup>, keyword: string := "software", maxJobs: int := 20)
      returns (out: Outcome)
      modifies this
      ensures !driverOpen
      ensures out == PageOutcome(LoadSoup(pages, SiteBase + "/internships?search=" + keyword), maxJobs)
    {
      out := ScrapeJobs(pages, keyword, "internships", maxJobs);
    }

    method ScrapeCompetitions(pages: map<string, Soup>, keyword: string := "coding", maxJobs: int := 20)
      returns (out: Outcome)
      modifies this
      ensures !driverOpen
      ensures out == PageOutcome(LoadSoup(pages, SiteBase + "/competitions?search=" + keyword), maxJobs)
    {
      out := ScrapeJobs(pages, keyword, "competitions", maxJobs);
    }
  }
}

=== FILE: upload_resume.dfy ===
/** The rendering of the resume analysis text in the upload page: the text is
    split into lines and each line becomes one element, chosen by its first
    matching prefix/suffix rule. */
module UploadResume {
  import opened Common

  // ---------------------------------------------------------------- lines

  /** `text.split('\n')`. */
  function Split(text: string): (lines: seq<string>)
    ensures |lines| >= 1
    ensures forall k :: 0 <= k < |lines| ==> '\n' !in lines[k]
    decreases |text|
  {
    match FirstIndexOf(text, '\n')
    case None => [text]
    case Some(i) => [text[..i]] + Split(text[i + 1..])
  }

  /** `lines.join('\n')`. */
  function Join(lines: seq<string>): string
    requires |lines| >= 1
  {
    if |lines| == 1 then lines[0] else lines[0] + "\n" + Join(lines[1..])
  }

  /** Splitting loses nothing: joining the lines gives the text back. */
  lemma {:induction false} JoinSplit(text: string)
    ensures Join(Split(text)) == text
    decreases |text|
  {
    match FirstIndexOf(text, '\n')
    case None =>
    case Some(i) =>
      var rest := text[i + 1..];
      var lines := Split(text);
      assert lines == [text[..i]] + Split(rest);
      assert lines[0] == text[..i] && lines[1..] == Split(rest);
      JoinSplit(rest);
      assert Join(lines) == text[..i] + "\n" + rest;
      assert text == text[..i] + "\n" + rest;
  }

  /** And the lines of a joined text are the lines that were joined. */
  lemma {:induction false} SplitJoin(lines: seq<string>)
    requires |lines| >= 1
    requires forall k :: 0 <= k < |lines| ==> '\n' !in lines[k]
    ensures Split(Join(lines)) == lines
  {
    if |lines| > 1 {
      var rest := Join(lines[1..]);
      var text := lines[0] + "\n" + rest;
      var n := |lines[0]|;
      assert text[..n] == lines[0] && text[n] == '\n';
      assert text[n + 1..] == rest;
      FirstIndexOfIs(text, '\n', n);
      assert Split(text) == [lines[0]] + Split(rest);
      SplitJoin(lines[1..]);
      assert lines == [lines[0]] + lines[1..];
    } else {
      assert lines == [lines[0]];
    }
  }

  // ------------------------------------------------------------ "**" removal

  /** The global replacement of "**" by "": every "**" removed, scanning left to right. */
  function RemoveStars(s: string): (r: string)
    ensures |r| <= |s|
    decreases |s|
  {
    if |s| >= 2 && s[0] == '*' && s[1] == '*' then RemoveStars(s[2..])
    else if s == [] then []
    else [s[0]] + RemoveStars(s[1..])
  }

  /** Two adjacent stars at position `i`. */
  predicate DoubleStarAt(s: string, i: int) {
    0 <= i && i + 1 < |s| && s[i] == '*' && s[i + 1] == '*'
  }

  /** The result of the replacement holds no "**" any more. */
  lemma {:induction false} RemoveStarsLeavesNone(s: string)
    ensures forall i :: !DoubleStarAt(RemoveStars(s), i)
    decreases |s|
  {
    if |s| >= 2 && s[0] == '*' && s[1] == '*' {
      RemoveStarsLeavesNone(s[2..]);
    } else if s != [] {
      var r := RemoveStars(s);
      var rest := RemoveStars(s[1..]);
      RemoveStarsLeavesNone(s[1..]);
      assert r == [s[0]] + rest;
      forall i | 0 <= i
        ensures !DoubleStarAt(r, i)
      {
        if i > 0 {
          assert !DoubleStarAt(rest, i - 1);
        } else if s[0] == '*' && |s| >= 2 {
          // s[0] is a star that was kept, so s[1] is not one, and it heads `rest`.
          assert s[1] != '*' && s[1..][0] == s[1];
          assert rest == [s[1]] + RemoveStars(s[1..][1..]);
        }
      }
    }
  }

  /** Text without "**" is left unchanged, so applying the replacement twice
      is applying it once. */
  lemma {:induction false} RemoveStarsUnchanged(s: string)
    requires forall i :: !DoubleStarAt(s, i)
    ensures RemoveStars(s) == s
    decreases |s|
  {
    if s != [] {
      assert !DoubleStarAt(s, 0);
      assert forall i :: DoubleStarAt(s[1..], i) ==> DoubleStarAt(s, i + 1);
      RemoveStarsUnchanged(s[1..]);
      assert s == [s[0]] + s[1..];
    }
  }

  lemma RemoveStarsIdempotent(s: string)
    ensures RemoveStars(RemoveStars(s)) == RemoveStars(s)
  {
    RemoveStarsLeavesNone(s);
    RemoveStarsUnchanged(RemoveStars(s));
  }

  // ---------------------------------------------------------- the elements

  /** What a line is rendered as: a bold heading (an h3 with larger spacing), an
      h2, an h3, a list item, or a paragraph, each with its text. */
  datatype Element =
    | BoldHeading(text: string)
    | Heading(text: string)
    | Subheading(text: string)
    | ListItem(text: string)
    | Paragraph(text: string)

  /** The rules in the order they are tried. */
  function Classify(line: string): (e: Element)
    ensures '\n' !in line ==> '\n' !in e.text
  {
    if StartsWith(line, "**") && EndsWith(line, "**") then
      RemoveStarsSubsequence(line);
      BoldHeading(RemoveStars(line))
    else if StartsWith(line, "# ") then Heading(line[2..])
    else if StartsWith(line, "## ") then Subheading(line[3..])
    else if StartsWith(line, "- ") then ListItem(line[2..])
    else Paragraph(line)
  }

  lemma {:induction false} RemoveStarsSubsequence(s: string)
    ensures forall c :: c in RemoveStars(s) ==> c in s
    decreases |s|
  {
    if |s| >= 2 && s[0] == '*' && s[1] == '*' {
      RemoveStarsSubsequence(s[2..]);
    } else if s != [] {
      RemoveStarsSubsequence(s[1..]);
    }
  }

  /** The marker a rule removed in front of the text. */
  function Marker(e: Element): string {
    match e
    case BoldHeading(_) => ""
    case Heading(_) => "# "
    case Subheading(_) => "## "
    case ListItem(_) => "- "
    case Paragraph(_) => ""
  }

  /** Apart from the bold heading, whose stars are gone, the element is its
      marker followed by its text: nothing else of the line is lost. A bold
      heading's text has no "**" left; a line that both starts and ends with
      "**" is always one (the rule is tried first), even "**" alone. */
  lemma ClassifyProperties(line: string)
    ensures !Classify(line).BoldHeading? ==> Marker(Classify(line)) + Classify(line).text == line
    ensures Classify(line).BoldHeading? <==> StartsWith(line, "**") && EndsWith(line, "**")
    ensures Classify(line).BoldHeading? ==> forall i :: !DoubleStarAt(Classify(line).text, i)
    ensures Classify(line).Paragraph? ==> !StartsWith(line, "# ") && !StartsWith(line, "## ") && !StartsWith(line, "- ")
    ensures Classify("**") == BoldHeading("")
  {
    RemoveStarsLeavesNone(line);
    if !Classify(line).BoldHeading? {
      var m := Marker(Classify(line));
      assert line == line[..|m|] + line[|m|..];
    }
    assert RemoveStars("**") == RemoveStars([]);
  }

  /** A line starting with "## " is never taken for an h2: "# " is tried first
      but does not match it. */
  lemma DoubleHashIsSubheading(rest: string)
    requires !EndsWith("## " + rest, "**")
    ensures Classify("## " + rest) == Subheading(rest)
  {
    var line := "## " + rest;
    assert line[1] == '#' && line[..2] != "# ";
    assert line[..3] == "## " && line[3..] == rest;
  }

  /** The elements of the analysis text: one per line, in line order. */
  function Render(analysis: string): (es: seq<Element>)
    ensures |es| == |Split(analysis)|
    ensures forall k :: 0 <= k < |es| ==> es[k] == Classify(Split(analysis)[k])
  {
    var lines := Split(analysis);
    seq(|lines|, k requires 0 <= k < |lines| => Classify(lines[k]))
  }

  /** Rendering text joined from lines gives one element per line, in order. */
  lemma RenderJoined(lines: seq<string>)
    requires |lines| >= 1
    requires forall k :: 0 <= k < |lines| ==> '\n' !in lines[k]
    ensures |Render(Join(lines))| == |lines|
    ensures forall k :: 0 <= k < |lines| ==> Render(Join(lines))[k] == Classify(lines[k])
  {
    SplitJoin(lines);
  }

  /** What the dialog shows: nothing for an empty analysis (the `analysis &&`
      guard), otherwise the rendered lines. Only an empty analysis shows nothing,
      because any other text has at least one line. */
  function Shown(analysis: string): (es: seq<Element>)
    ensures es == [] <==> analysis == []
    ensures analysis != [] ==> |es| == |Split(analysis)| && forall k :: 0 <= k < |es| ==> es[k] == Classify(Split(analysis)[k])
  {
    if analysis == [] then [] else Render(analysis)
  }
}
